=== FILE: README.md ===
# Jotter storage and sharing engine, in Dafny

Jotter is a personal file manager. Each user keeps three kinds of File:

- documents, whose text lives in the record;
- pdfs and images, whose bytes live on a byte store (the server's disk).

Files can sit in folders. The engine does the following:

- creates, lists, reads, updates and deletes Files, scoped to their owner;
- renames, duplicates and copies them, with their bytes;
- sums a user's usage against a fixed 15 GiB quota;
- issues time-limited share tokens that let anyone read one File.

This project models that engine as pure functions over an immutable store:

```
Store(files, folders, links keyed by token, disk: path -> size)
```

Each handler maps a store and a request to a `Step(store', reply)`. The reply is either `Ok(value)` or `Fail(status, message)`, with the source's exact messages. Any exception that reaches the central error handler becomes `Fail(ServerError, "Something went wrong!")`.

Everything the handlers get from outside is an explicit parameter:

- the clock `now`, in milliseconds;
- the id the database assigns, `newId`;
- the random token and the random file-name number;
- the request origin;
- whether a byte-store rename, copy or unlink succeeds.

Files:

| file | what it holds |
|---|---|
| values.dfy | `Option` and `Field` (undefined / null / given) |
| http.dfy | status codes and replies |
| text.dfy | decimal rendering, UTF-8 length |
| paths.dfy | `basename`, `dirname`, `extname`, `join` over '/' separators |
| records.dfy | the File, Folder and ShareLink records; the store and its validity invariant |
| views.dfy | the content resolver |
| paging.dfy | skip/limit windows, page counts, filtering in sort order |
| catalog.dfy | create, list, get, update, delete, raw content |
| transfers.dfy | rename, duplicate, copy |
| quota.dfy | storage overview |
| sharing.dfy | share links |
| folders.dfy | folder handlers |

`Valid` is the store invariant:

- every record sits under its own id;
- a document has no path;
- a pdf or image has a path and no inline text;
- every link sits under its own non-empty token.

Every mutating handler is proved to keep `Valid`.

Behaviour worth knowing:

- Create answers with the raw record. It has no `content` override and no `contentUrl`.
- Content URLs carry the `/api` prefix: `/api/files/<id>/content` and `/api/files/share/<token>/content`.
- A pdf or image gets a `contentUrl` even when it has no path.
- A missing or empty name on create is not a 400. It is the schema's required-field error, so it answers 500.
- Deleting a folder does not hide its Files from the `folderId` filter. They are still listed under the deleted folder's id.
- The unit list of the overview stops at GB. There is no TB.
- An update with `content: null` clears a document's text (`Catalog.UpdateCanClearText`). This breaks the "a document has content" rule that create enforces. `Valid` therefore does not require document text.

## Model

| member | source | states |
|---|---|---|
| Records.ParseType | models/File.js:5 | Exactly "document", "pdf" and "image" are accepted. Each maps to the type whose name it is. Any other string maps to no type. |
| Records.ParseTypeName | models/File.js:5 | Parsing a type's name gives back that type. |
| Records.NewFile | models/File.js:3-11 | A new File has null folder, path and content unless given. It is not a favourite. Both timestamps are the creation time. |
| Records.Touch | models/File.js:11 | Saving moves `updatedAt` to now exactly when some field changed. Otherwise the record is untouched. |
| Records.InsertFile | models/File.js:4 | An insert succeeds if and only if the name is non-empty and the id is unused. On success only that id changes. A failure is a 500. |
| Views.Resolve | controllers/fileController.js:67-72 | A document shows its text and no URL. A pdf or image shows no text and its content URL. Every other field is the record's. |
| Views.ResolveWellShaped | controllers/fileController.js:95-100 | For a well-shaped File, the view's record is the stored record. |
| Views.OwnerUrlInjective | controllers/fileController.js:70-71 | Distinct Files get distinct owner content URLs. |
| Views.ViewExclusive | controllers/fileController.js:69-71 | A view never carries both inline text and a URL. |
| Catalog.CreateFile | controllers/fileController.js:7-43 | 400 exactly on an unknown type ("Invalid file type"), a document with falsy content ("Content is required for documents"), or a binary without an upload ("File is required for pdf and image types"). Success exactly when also the name is truthy and the id is free. Otherwise a falsy name or a taken id is a 500 from the central handler. The new record carries the request's fields, is well shaped, and is the only change. |
| Catalog.CreateKeepsValid | controllers/fileController.js:13-38 | Create keeps the store invariant. |
| Catalog.CreateThenGet | controllers/fileController.js:29-39 | A created document reads back with its text and no URL. A created binary reads back with no text and its own content URL. |
| Catalog.GetFile | controllers/fileController.js:88-105 | The File is found if and only if it exists and the caller owns it, and the answer is its owner view. Otherwise the answer is 404 "File not found". |
| Catalog.ListFiles | controllers/fileController.js:45-86 | A 500 if and only if skip is negative. Otherwise the page is the skip/limit window of the matching Files in sort order, each shown through its owner view. At most abs(limit) entries are returned when limit is non-zero. `total` counts every match. `totalPages` is the ceiling of total/limit, or null for limit 0. |
| Catalog.MatchCount | controllers/fileController.js:61-65 | The sorted matches are as many as the documents the count query reports. |
| Catalog.ListingReachesEveryMatch | controllers/fileController.js:56-80 | With a positive limit, the j-th match is entry j mod limit of page j div limit + 1. That page is at most `totalPages`. |
| Catalog.ListingKeepsOrder | controllers/fileController.js:55-64 | When the scan is newest-first by `createdAt` (the default sort), so is every page. |
| Catalog.Patched | controllers/fileController.js:116-119 | A truthy name replaces the name. A defined content replaces a document's text, and null clears it. A defined `isFavorite` replaces the flag. No other field changes. |
| Catalog.UpdateFile | controllers/fileController.js:107-132 | 404 and no change for a File the caller does not own. Otherwise only that record changes, to the patched record. `updatedAt` moves only if something changed. |
| Catalog.UpdateIdempotent | controllers/fileController.js:116-121 | Applying the same update twice gives the same store as applying it once. |
| Catalog.UpdateKeepsValid | controllers/fileController.js:116-119 | Update keeps the store invariant. |
| Catalog.UpdateCanClearText | controllers/fileController.js:117-118 | `content: null` leaves an owned document with no text. |
| Catalog.DeleteFile | controllers/fileController.js:134-146 | 404 and no change when not owned. Otherwise the record goes, and folders and links stay. The reply is 204 if and only if there is no path or the unlink succeeds. Only then is the blob removed. A failed unlink is a 500 after the record is gone. |
| Catalog.DeleteKeepsValid | controllers/fileController.js:136-141 | Delete keeps the store invariant. |
| Catalog.DeleteTwice | controllers/fileController.js:136-140 | A second delete of the same id answers 404 and changes nothing. |
| Catalog.SendFile | controllers/fileController.js:156 | Bytes are sent if and only if the path is set and held by the byte store. The answer is that path and its size. Otherwise 500. |
| Catalog.FileContent | controllers/fileController.js:148-160 | 404 for a missing, foreign or document File. Otherwise the File's bytes. |
| Catalog.ForeignFilesInvisible | controllers/fileController.js:90-94 | Another user's File answers 404 to get, content, update and delete, and the store does not change. |
| Paging.TotalPages | controllers/fileController.js:80 | `ceil(total / limit)`: the least page count covering `total` for positive limits, the matching negative value for negative limits, and null for 0. |
| Paging.Window | controllers/fileController.js:61-64 | The page is a contiguous slice starting at `skip`. It has at most abs(limit) entries. It is cut short only by the end of the matches. |
| Paging.SelectCount | controllers/fileController.js:61-65 | Filtering a scan of all keys yields as many entries as the filter accepts keys. |
| Paging.SelectKeepsOrder | controllers/fileController.js:61-62 | Filtering keeps the sort order. |
| Transfers.RenameFile | controllers/fileController.js:221-264 | 400 on a falsy name, then 404 when not owned, then 500 with no change when the disk rename fails. On success the record gets the name and, for a binary, the path beside the old one. The blob moves there. Nothing else in the store changes; `updatedAt` is stamped when the record changed. |
| Transfers.RenameKeepsDirectoryAndExtension | controllers/fileController.js:237-240 | The renamed blob stays in its directory and keeps its extension. This holds for a name with no separator, which must also have no dot when the old path had no extension. |
| Transfers.RenameKeepsValid | controllers/fileController.js:232-253 | Rename keeps the store invariant. |
| Transfers.RenameDocumentOnlyRenames | controllers/fileController.js:232-236 | Renaming a document changes its name only. Its text, path and the byte store stay. |
| Transfers.CopyPathShape | controllers/fileController.js:288-292 | A copy's file name is a fresh stem in the source's directory with the source's extension. |
| Transfers.CloneRecord | controllers/fileController.js:274-283 | The new record keeps type and owner and is not a favourite. It copies a document's text by value. A binary gets the fresh path. |
| Transfers.Clone | controllers/fileController.js:342-374 | A failed byte copy answers 500 and changes nothing. Success exactly when the copy goes through, the name is non-empty and the id is free. On success the one new record is added and the bytes are copied to its path. |
| Transfers.DuplicateFile | controllers/fileController.js:266-320 | 404 when not owned, and 500 with no change on a failed copy. Success adds exactly one record, "Copy of <name>", in the same folder, copies the bytes, and answers with the new record's owner view. A taken id after a successful copy is a 500 that leaves the copied bytes on the byte store. |
| Transfers.CopyFile | controllers/fileController.js:322-388 | Checked in order: a falsy target gives 400, a foreign or missing File 404, a foreign or missing folder 404, a failed copy 500. Success adds exactly one same-named record in the target folder, copies the bytes, and answers with the new record's owner view. A failed save after a successful copy is a 500 that leaves the copied bytes on the byte store. |
| Transfers.CopyPathInjective | controllers/fileController.js:291-292 | Two copies of one blob made in the same millisecond land on different paths whenever their random numbers differ. |
| Transfers.DuplicateKeepsValid | controllers/fileController.js:274-306 | Duplicate keeps the store invariant. |
| Transfers.CopyKeepsValid | controllers/fileController.js:342-374 | Copy keeps the store invariant. |
| Transfers.DuplicateBytesIndependent | controllers/fileController.js:288-296 | When the fresh copy path differs from the source's path, a duplicate's bytes are a separate blob: overwriting the source's path leaves the copy's size alone. |
| Quota.FileUsage | controllers/fileController.js:171-183 | A binary with a path counts its size on the byte store, or 0 if the byte store does not hold it. A document counts its text's UTF-8 length. Anything else counts 0. |
| Quota.UsageOrderIndependent | controllers/fileController.js:168-184 | The used-space sum is the same for any two scans of the same Files, whatever their order. |
| Quota.UsageOfEnumerations | controllers/fileController.js:168-184 | Two scans of the whole store report the same usage. |
| Quota.StorageOverview | controllers/fileController.js:162-217 | The total is 15 GiB. The used space is the sum of the caller's charges. The available space is total minus used, and may be negative. |
| Quota.Humanize | controllers/fileController.js:189-198 | The scaled size times 1024^unit is the byte count. A unit above B means bytes ≥ 1024^unit. A unit below GB means bytes < 1024^(unit+1). |
| Quota.Describe | controllers/fileController.js:189-198 | The unit is the largest of B, KB, MB and GB that the size reaches: B below 1024, KB below 1024^2, MB below 1024^3, GB from there up. The scaled figure times 1024^k is the byte count, for the k-th unit. |
| Quota.UsageOfInsert | controllers/fileController.js:168-184 | Adding one record that changes no other File's charge raises the usage by exactly that record's charge, for any scan order. |
| Quota.AppendingTextCharges | controllers/fileController.js:180-182 | Updating a document's text to its old text plus `extra` raises the owner's used space by exactly the UTF-8 length of `extra`. |
| Quota.DuplicateChargesQuota | controllers/fileController.js:274-306 | Duplicating an owned File raises the owner's usage by exactly that File's charge. |
| Sharing.ShareFile | controllers/fileController.js:390-418 | 400 unless 1 ≤ days ≤ 30, where the default is 7. Then 404 when not owned, and 500 on an empty or taken token or a taken link id, with no change. On success one link expiring at now + days·86,400,000 is added, and the answer is its URL. |
| Sharing.ShareKeepsValid | models/ShareLink.js:3-14 | Issuing keeps the store invariant. |
| Sharing.GetSharedFile | controllers/fileController.js:420-446 | Resolves if and only if the link exists, has not expired and its File exists. The answer is the shared view. Otherwise 404 "Share link is invalid or expired". |
| Sharing.GetSharedContent | controllers/fileController.js:448-469 | Gives the same 404 for a dead token and for a document. Otherwise the File's bytes. |
| Sharing.ShareThenResolve | controllers/fileController.js:405-438 | A fresh link resolves to its File exactly before its expiry. |
| Sharing.DefaultLifetime | controllers/fileController.js:392-408 | With no lifetime given, the link expires 604,800,000 ms after issue. |
| Sharing.ExpiryIsFinal | controllers/fileController.js:422-431 | Once a link has expired it never resolves again. |
| Sharing.DeleteKillsLinks | controllers/fileController.js:136-140 | Deleting a File leaves its links stored but resolving to 404. |
| Sharing.ForeignFilesCannotBeShared | controllers/fileController.js:399-403 | Sharing another user's File answers 404 and changes nothing. |
| Sharing.NotesScenario | controllers/fileController.js:13-39 | A document "Notes" with text "Hello" is created and shared with the default lifetime. The holder sees "Hello" and no URL, and sees 404 from seven days on. |
| Folders.CreateFolder | controllers/folderController.js:3-12 | Succeeds exactly when the id is free. Adds one folder owned by the caller with both timestamps now. |
| Folders.GetFolder | controllers/folderController.js:45-56 | Found if and only if the caller owns the folder. Otherwise 404 "Folder not found". |
| Folders.UpdateFolder | controllers/folderController.js:58-71 | 404 when not owned. Otherwise only that folder changes: new name and `updatedAt` = now. |
| Folders.DeleteFolder | controllers/folderController.js:73-87 | Succeeds if and only if owned. Removes only the folder record. |
| Folders.FolderOpsKeepValid | controllers/folderController.js:3-87 | The folder handlers keep the store invariant. |
| Folders.DeleteFolderTwice | controllers/folderController.js:75-79 | A second delete answers 404. |
| Folders.DeleteFolderKeepsFiles | controllers/folderController.js:73-87 | There is no cascade. Every listing of Files, even one filtered by the deleted folder's id, is unchanged. |
| Folders.DeletedFolderIsNoTarget | controllers/fileController.js:334-340 | Copying into a deleted folder answers 404 "Target folder not found". |
| Folders.ListFolders | controllers/folderController.js:14-43 | Returns the skip/limit window of the caller's folders in sort order. `total` counts all of them. `totalPages` is as for Files. A negative skip gives 500. |
| Paths.ExtnamePreserved | controllers/fileController.js:238-240 | Joining a stem plus the old extension onto the old directory keeps directory and extension. The stem must have no separator, and no dot when the old path had no extension. |
| Text.Utf8LengthAppend | controllers/fileController.js:182 | The UTF-8 length of a concatenation is the sum of the parts' lengths. |
| Text.DecimalRoundTrip | controllers/fileController.js:291 | The rendered decimal of a number reads back as that number. |
| Text.DecimalInjective | controllers/fileController.js:291 | Distinct numbers render to distinct decimals. |

## Left out

- Authentication and the user model. `userId` is a parameter. Share routes are also behind the auth middleware in app.js, which is not part of this model.
- Express routing, multer and HTTP framing. The uploaded file's path is the `upload` parameter.
- The upload collaborator's write. `Catalog.CreateFile` does not add the uploaded bytes to `disk`; a created pdf or image has bytes only when the store already holds its `upload` path.
- The storage-details route. routes/fileRoutes.js points it at a handler the controller does not define, so there is nothing to model.
- The `error` detail field of 500 replies. It carries the exception text, which the model does not represent; only the status and `message` are modelled.
- The byte store's real behaviour. It is a map from path to size, and a rename, copy or unlink succeeds exactly when the given flag holds and the source path is present.
- Node path semantics. `dirname`, `extname` and `join` are modelled for '/' separators without normalisation (`..`, `//`, trailing '/').
- `toFixed(2)` rendering. `Quota.Humanize` returns the exact scaled real and the unit.
- The token's encoding and entropy. The 12 random bytes in base64url become the `token` parameter.
- The sort key and direction. The listings take `order`, every stored id already in the requested sort.
- Query strings are modelled as already-parsed integers. NaN, fractional and non-numeric `page` and `limit` are not modelled.
- `isFavorite` in an update is modelled as an optional boolean. Null and non-boolean values are not modelled.
- `expiresInDays` is modelled as an optional integer. Fractional and string values are not modelled.
- ObjectId casting. Ids are plain strings, and every string is a well-formed id. In the source, Mongoose rejects a malformed ObjectId with a cast error, which the central handler answers with a 500. The model differs in two ways. A malformed `:id`, or a malformed `folderId` given to copy or to the listing filter, is looked up and not found, so it gives a 404 or an empty match. A malformed `folderId` on create is stored as given and the create succeeds.
- Request body types. The body fields `name`, `type`, `content` and `folderId` are modelled as strings. A non-string JSON value is not modelled: for example, Mongoose casts a numeric `name` to text, and an object `folderId` fails the cast with a 500.
- Concurrency between requests. Each handler is atomic.
- The Folder schema. models/Folder.js is not part of this model, so a folder name is taken as unvalidated. The schema is assumed to have `timestamps: true`; the timestamp clauses of `Folders.CreateFolder` and `Folders.UpdateFolder` rest on that assumption.
- `Folders.UpdateFolder`: the name is always given. A request without `name` is not modelled; there `findOneAndUpdate` would stamp only `updatedAt`.
- `Text.Utf8Length`: counts 1 to 4 bytes per scalar value. Lone surrogates, which `Buffer.byteLength` counts as 3 bytes each, are not modelled.
- `Transfers.CopyStem`: uses the same `now` for the file-name stamp and for the timestamps. The two clock readings the source takes are not distinguished.
- `Quota.DuplicateChargesQuota`: assumes nothing already sat at the fresh copy path. If something did, `copyFileSync` overwrites it and the charge differs.

=== FILE: catalog.dfy ===
/** The owner-scoped File handlers: create, list, get, update, delete and
    raw content. Every lookup is `findOne({_id: id, userId})`, so a File
    owned by someone else behaves exactly like a missing one. */
module Catalog {
  import opened Values
  import opened Http
  import opened Paths
  import opened Records
  import opened Views
  import opened Paging

  const MsgContentRequired := "Content is required for documents"
  const MsgFileRequired := "File is required for pdf and image types"
  const MsgInvalidType := "Invalid file type"
  const MsgFileNotFound := "File not found"

  // ---------------------------------------------------------------- create

  /** The body of a create request. `folderId` is stored as given. */
  datatype CreateRequest = CreateRequest(name: Field<string>, kind: Field<string>, folderId: Option<Id>, content: Field<string>)

  /** The enum value a create request names, if any. */
  function RequestedType(req: CreateRequest): Option<FileType> {
    if req.kind.Given? then ParseType(req.kind.value) else None
  }

  /** The three 400 cases of create: an unknown type, a document with falsy
      content, a pdf or image without an uploaded file. */
  predicate CreateRejected(req: CreateRequest, upload: Option<Path>) {
    match RequestedType(req)
    case None => true
    case Some(t) => if t == Document then !Truthy(req.content) else upload.None?
  }

  /** `POST /files`. `upload` is the path the upload collaborator wrote the
      request's file to, if there was one; `newId` is the id the store
      assigns; `now` the clock. */
  function CreateFile(st: Store, userId: Id, req: CreateRequest, upload: Option<Path>, newId: Id, now: Millis): (r: Step<FileRec>)
    ensures r.reply.Fail? ==> r.store == st
    ensures r.reply.Fail? && r.reply.status == BadRequest <==> CreateRejected(req, upload)
    ensures RequestedType(req).None? ==> r.reply == Fail(BadRequest, MsgInvalidType)
    ensures RequestedType(req) == Some(Document) && !Truthy(req.content) ==>
      r.reply == Fail(BadRequest, MsgContentRequired)
    ensures RequestedType(req).Some? && RequestedType(req).value != Document && upload.None? ==>
      r.reply == Fail(BadRequest, MsgFileRequired)
    ensures r.reply.Ok? <==> !CreateRejected(req, upload) && Truthy(req.name) && newId !in st.files
    ensures !CreateRejected(req, upload) && !(Truthy(req.name) && newId !in st.files) ==>
      r.reply == Fail(ServerError, Unhandled)
    ensures r.reply.Ok? ==>
      var f := r.reply.value;
      && r.store == st.(files := st.files[newId := f])
      && f.id == newId && f.userId == userId && f.name == req.name.value
      && RequestedType(req) == Some(f.kind) && f.folderId == req.folderId
      && !f.isFavorite && f.createdAt == now && f.updatedAt == now
      && WellShaped(f)
      && (f.kind == Document ==> f.content == Some(req.content.value))
      && (f.kind != Document ==> f.filePath == upload)
  {
    match RequestedType(req)
    case None => Refuse(st, BadRequest, MsgInvalidType)
    case Some(t) =>
      if t == Document && !Truthy(req.content) then Refuse(st, BadRequest, MsgContentRequired)
      else if t != Document && upload.None? then Refuse(st, BadRequest, MsgFileRequired)
      // the schema requires a name; the validation error reaches the central handler
      else if !Truthy(req.name) then Refuse(st, ServerError, Unhandled)
      else
        var base := NewFile(newId, req.name.value, t, req.folderId, userId, now);
        var f := if t == Document then base.(content := Some(req.content.value)) else base.(filePath := upload);
        match InsertFile(st, f)
        case Ok(st') => Step(st', Ok(f))
        case Fail(status, message) => Refuse(st, status, message)
  }

  lemma CreateKeepsValid(st: Store, userId: Id, req: CreateRequest, upload: Option<Path>, newId: Id, now: Millis)
    requires Valid(st)
    ensures Valid(CreateFile(st, userId, req, upload, newId, now).store)
  {
    var r := CreateFile(st, userId, req, upload, newId, now);
    if r.reply.Ok? {
      InsertKeepsValid(st, r.reply.value);
    }
  }

  // ------------------------------------------------------------------- get

  /** `GET /files/:id`. */
  function GetFile(st: Store, userId: Id, id: Id): (r: Reply<FileView>)
    ensures r.Ok? <==> Owns(st, userId, id)
    ensures r.Fail? ==> r == Fail(NotFound, MsgFileNotFound)
    ensures r.Ok? ==> r.value == OwnerView(st.files[id])
  {
    if Owns(st, userId, id) then Ok(OwnerView(st.files[id])) else Fail(NotFound, MsgFileNotFound)
  }

  /** A created document reads back with its text and no URL; a created pdf
      or image reads back with no text and the URL of its own content. */
  lemma CreateThenGet(st: Store, userId: Id, req: CreateRequest, upload: Option<Path>, newId: Id, now: Millis)
    requires CreateFile(st, userId, req, upload, newId, now).reply.Ok?
    ensures var r := CreateFile(st, userId, req, upload, newId, now);
      var g := GetFile(r.store, userId, newId);
      && g.Ok?
      && (RequestedType(req) == Some(Document) ==>
            g.value.file.content == Some(req.content.value) && g.value.contentUrl == None)
      && (RequestedType(req) != Some(Document) ==>
            g.value.file.content == None && g.value.contentUrl == Some(OwnerContentUrl(newId)))
  {
  }

  // ------------------------------------------------------------------ list

  /** The filter parameters of `GET /files`. */
  datatype FileFilter = FileFilter(folderId: Field<string>, isFavorite: Field<string>)

  /** Query of `GET /files`, after the defaults `page = 1`, `limit = 10`.
      Sorting is carried by the `order` argument of `ListFiles`. */
  datatype FileQuery = FileQuery(filter: FileFilter, page: int, limit: int)

  /** The listing filter: the caller's Files, in the folder when a truthy
      `folderId` is given, with `isFavorite == (param == "true")` when that
      parameter is present. */
  predicate Matches(f: FileRec, userId: Id, q: FileFilter) {
    && f.userId == userId
    && (Truthy(q.folderId) ==> f.folderId == Some(q.folderId.value))
    && (q.isFavorite != Undefined ==> f.isFavorite == (q.isFavorite == Given("true")))
  }

  /** The ids of every File the listing filter accepts. */
  function MatchingIds(st: Store, userId: Id, q: FileFilter): set<Id> {
    set id | id in st.files && Matches(st.files[id], userId, q)
  }

  /** The listing filter as a test on ids. */
  function Accepts(st: Store, userId: Id, q: FileFilter): Id -> bool {
    id => id in st.files && Matches(st.files[id], userId, q)
  }

  /** The matching ids in sort order. */
  function MatchingInOrder(st: Store, userId: Id, q: FileFilter, order: seq<Id>): (hits: seq<Id>)
    ensures forall i :: 0 <= i < |hits| ==> hits[i] in st.files && Matches(st.files[hits[i]], userId, q)
  {
    Select(order, Accepts(st, userId, q))
  }

  /** The sorted matches are exactly the matching Files, so their number
      is the count `countDocuments` reports. */
  lemma MatchCount(st: Store, userId: Id, q: FileFilter, order: seq<Id>)
    requires Enumerates(order, st.files.Keys)
    ensures |MatchingInOrder(st, userId, q, order)| == |MatchingIds(st, userId, q)|
  {
    SelectCount(order, st.files.Keys, Accepts(st, userId, q), MatchingIds(st, userId, q));
  }

  /** `GET /files`. `order` is every stored File id, in the order the
      requested sort puts them. The page is the `skip`/`limit` window of the
      sorted matches. A negative skip is refused by the database and
      surfaces as a 500. */
  function ListFiles(st: Store, userId: Id, q: FileQuery, order: seq<Id>): (r: Reply<Listing<FileView>>)
    requires Enumerates(order, st.files.Keys)
    ensures r.Fail? <==> Skip(q.page, q.limit) < 0
    ensures r.Fail? ==> r == Fail(ServerError, Unhandled)
    ensures r.Ok? ==>
      var l := r.value;
      var w := Window(MatchingInOrder(st, userId, q.filter, order), Skip(q.page, q.limit), q.limit);
      && |l.data| == |w|
      && (forall i :: 0 <= i < |w| ==>
            w[i] in st.files && Matches(st.files[w[i]], userId, q.filter) && l.data[i] == OwnerView(st.files[w[i]]))
      && (q.limit != 0 ==> |l.data| <= Abs(q.limit))
      && l.total == |MatchingIds(st, userId, q.filter)|
      && l.page == q.page && l.limit == q.limit
      && l.totalPages == TotalPages(l.total, q.limit)
  {
    var skip := Skip(q.page, q.limit);
    if skip < 0 then Fail(ServerError, Unhandled)
    else
      var hits := MatchingInOrder(st, userId, q.filter, order);
      MatchCount(st, userId, q.filter, order);
      var w := Window(hits, skip, q.limit);
      assert forall i :: 0 <= i < |w| ==> w[i] == hits[skip + i];
      Ok(Listing(seq(|w|, i requires 0 <= i < |w| => OwnerView(st.files[w[i]])),
                 |hits|, q.page, q.limit, TotalPages(|hits|, q.limit)))
  }

  /** Every matching File is listed on some page: with a positive limit,
      the File at position `j` of the sorted matches is on page
      `j / limit + 1`, no later than the last page. */
  lemma ListingReachesEveryMatch(st: Store, userId: Id, q: FileQuery, order: seq<Id>, j: nat)
    requires Enumerates(order, st.files.Keys) && q.limit > 0
    requires j < |MatchingInOrder(st, userId, q.filter, order)|
    ensures var hits := MatchingInOrder(st, userId, q.filter, order);
      var r := ListFiles(st, userId, q.(page := j / q.limit + 1), order);
      && r.Ok?
      && r.value.data[j % q.limit] == OwnerView(st.files[hits[j]])
      && j / q.limit + 1 <= r.value.totalPages.value
  {
    var hits := MatchingInOrder(st, userId, q.filter, order);
    PageCovers(hits, q.limit, j);
  }

  /** The default sort, `createdAt` descending, as an order on ids. */
  function NewerFirst(st: Store): (Id, Id) -> bool {
    (a, b) => a in st.files && b in st.files ==> st.files[a].createdAt >= st.files[b].createdAt
  }

  /** When the scan is newest first, so is every page. */
  lemma ListingKeepsOrder(st: Store, userId: Id, q: FileQuery, order: seq<Id>)
    requires Enumerates(order, st.files.Keys)
    requires Ordered(order, NewerFirst(st))
    requires Skip(q.page, q.limit) >= 0
    ensures var data := ListFiles(st, userId, q, order).value.data;
      forall i, j :: 0 <= i < j < |data| ==> data[i].file.createdAt >= data[j].file.createdAt
  {
    var hits := MatchingInOrder(st, userId, q.filter, order);
    SelectKeepsOrder(order, Accepts(st, userId, q.filter), NewerFirst(st));
    WindowKeepsOrder(hits, Skip(q.page, q.limit), q.limit, NewerFirst(st));
  }

  // ---------------------------------------------------------------- update

  /** Body of `PUT /files/:id`. */
  datatype FilePatch = FilePatch(name: Field<string>, content: Field<string>, isFavorite: Option<bool>)

  /** The partial update: a truthy name replaces the name; a defined
      `content` replaces a document's text (null clears it); a defined
      `isFavorite` replaces the flag. */
  function Patched(f: FileRec, p: FilePatch): (g: FileRec)
    ensures g.name == (if Truthy(p.name) then p.name.value else f.name)
    ensures g.content == (if f.kind == Document && p.content.Given? then Some(p.content.value)
                          else if f.kind == Document && p.content.Null? then None
                          else f.content)
    ensures g.isFavorite == (if p.isFavorite.Some? then p.isFavorite.value else f.isFavorite)
    ensures g.(name := f.name, content := f.content, isFavorite := f.isFavorite) == f
  {
    var named := if Truthy(p.name) then f.(name := p.name.value) else f;
    var written :=
      if f.kind == Document && p.content != Undefined then
        named.(content := if p.content.Null? then None else Some(p.content.value))
      else named;
    if p.isFavorite.Some? then written.(isFavorite := p.isFavorite.value) else written
  }

  /** `PUT /files/:id`: only the addressed File changes, only in the fields
      the patch supplies, and `updatedAt` moves only if one of them
      actually changed. */
  function UpdateFile(st: Store, userId: Id, id: Id, p: FilePatch, now: Millis): (r: Step<FileView>)
    ensures !Owns(st, userId, id) ==> r.store == st && r.reply == Fail(NotFound, MsgFileNotFound)
    ensures Owns(st, userId, id) ==>
      var f := st.files[id];
      && id in r.store.files
      && r.store == st.(files := st.files[id := r.store.files[id]])
      && r.store.files[id] == Touch(f, Patched(f, p), now)
      && r.reply == Ok(OwnerView(r.store.files[id]))
  {
    if !Owns(st, userId, id) then Refuse(st, NotFound, MsgFileNotFound)
    else
      var f := st.files[id];
      var g := Touch(f, Patched(f, p), now);
      Step(st.(files := st.files[id := g]), Ok(OwnerView(g)))
  }

  /** Sending the same update twice leaves the store as sending it once:
      the second request finds nothing to change, so not even `updatedAt`
      moves. */
  lemma UpdateIdempotent(st: Store, userId: Id, id: Id, p: FilePatch, now: Millis, later: Millis)
    ensures var once := UpdateFile(st, userId, id, p, now).store;
      UpdateFile(once, userId, id, p, later).store == once
  {
    var once := UpdateFile(st, userId, id, p, now).store;
    if Owns(st, userId, id) {
      var f := st.files[id];
      var g := once.files[id];
      assert Patched(g, p) == g;
      assert once.files[id := g] == once.files;
    }
  }

  /** Updating never moves a blob, never gives a document a path, and never
      gives a pdf or image inline text. */
  lemma UpdateKeepsValid(st: Store, userId: Id, id: Id, p: FilePatch, now: Millis)
    requires Valid(st)
    ensures Valid(UpdateFile(st, userId, id, p, now).store)
  {
  }

  /** As written, an update can clear a document's text: `content: null`
      passes the `!== undefined` test, so the stored document no longer
      carries text even though create insists on it. */
  lemma UpdateCanClearText(st: Store, userId: Id, id: Id, now: Millis)
    requires Owns(st, userId, id) && st.files[id].kind == Document
    ensures var r := UpdateFile(st, userId, id, FilePatch(Undefined, Null, None), now);
      r.reply.Ok? && r.store.files[id].content == None && r.reply.value.file.content == None
  {
  }

  // ---------------------------------------------------------------- delete

  /** `DELETE /files/:id`. The record goes first (`findOneAndDelete`), then
      the blob (`unlinkSync`). `unlinkOk` is whether the byte store's unlink
      succeeds for a path it holds; a failed unlink surfaces as a 500 after
      the record is already gone. Share links are left pointing at the
      deleted id. */
  function DeleteFile(st: Store, userId: Id, id: Id, unlinkOk: bool): (r: Step<()>)
    ensures !Owns(st, userId, id) ==> r.store == st && r.reply == Fail(NotFound, MsgFileNotFound)
    ensures Owns(st, userId, id) ==>
      && r.store.files == st.files - {id}
      && r.store.folders == st.folders && r.store.links == st.links
      && (r.reply.Fail? ==> r.reply == Fail(ServerError, Unhandled))
      && (r.reply.Ok? <==> st.files[id].filePath.None? || (unlinkOk && st.files[id].filePath.value in st.disk))
      && (r.reply.Ok? && st.files[id].filePath.Some? ==> r.store.disk == st.disk - {st.files[id].filePath.value})
      && (r.reply.Fail? || st.files[id].filePath.None? ==> r.store.disk == st.disk)
  {
    if !Owns(st, userId, id) then Refuse(st, NotFound, MsgFileNotFound)
    else
      var f := st.files[id];
      var st' := st.(files := st.files - {id});
      match f.filePath
      case None => Step(st', Ok(()))
      case Some(path) =>
        if unlinkOk && path in st.disk then Step(st'.(disk := st.disk - {path}), Ok(()))
        else Step(st', Fail(ServerError, Unhandled))
  }

  lemma DeleteKeepsValid(st: Store, userId: Id, id: Id, unlinkOk: bool)
    requires Valid(st)
    ensures Valid(DeleteFile(st, userId, id, unlinkOk).store)
  {
  }

  /** A second delete of the same id finds nothing. */
  lemma DeleteTwice(st: Store, userId: Id, id: Id, ok1: bool, ok2: bool)
    ensures var once := DeleteFile(st, userId, id, ok1).store;
      DeleteFile(once, userId, id, ok2) == Step(once, Fail(NotFound, MsgFileNotFound))
  {
  }

  // --------------------------------------------------------------- content

  /** What `sendFile` streams: a path on the byte store and its size. */
  datatype Blob = Blob(path: Path, size: nat)

  /** `res.sendFile(path.resolve(filePath))` for a File already found: a
      null path throws in `path.resolve`, and a path the byte store does not
      hold makes `sendFile` fail; both reach the central handler. */
  function SendFile(st: Store, f: FileRec): (r: Reply<Blob>)
    ensures r.Ok? <==> f.filePath.Some? && f.filePath.value in st.disk
    ensures r.Ok? ==> r.value.path == f.filePath.value && r.value.size == st.disk[f.filePath.value]
    ensures r.Fail? ==> r == Fail(ServerError, Unhandled)
  {
    match f.filePath
    case None => Fail(ServerError, Unhandled)
    case Some(p) => if p in st.disk then Ok(Blob(p, st.disk[p])) else Fail(ServerError, Unhandled)
  }

  /** `GET /files/:id/content`: 404 for a File that is missing, not the
      caller's, or a document. */
  function FileContent(st: Store, userId: Id, id: Id): (r: Reply<Blob>)
    ensures !Owns(st, userId, id) || st.files[id].kind == Document ==> r == Fail(NotFound, MsgFileNotFound)
    ensures Owns(st, userId, id) && st.files[id].kind != Document ==> r == SendFile(st, st.files[id])
  {
    if !Owns(st, userId, id) || st.files[id].kind == Document then Fail(NotFound, MsgFileNotFound)
    else SendFile(st, st.files[id])
  }

  /** A File that belongs to someone else is invisible: every owner-scoped
      handler answers as if it did not exist and changes nothing. */
  lemma ForeignFilesInvisible(st: Store, userId: Id, id: Id, p: FilePatch, now: Millis, unlinkOk: bool)
    requires id in st.files && st.files[id].userId != userId
    ensures GetFile(st, userId, id) == Fail(NotFound, MsgFileNotFound)
    ensures FileContent(st, userId, id) == Fail(NotFound, MsgFileNotFound)
    ensures UpdateFile(st, userId, id, p, now) == Step(st, Fail(NotFound, MsgFileNotFound))
    ensures DeleteFile(st, userId, id, unlinkOk) == Step(st, Fail(NotFound, MsgFileNotFound))
  {
  }
}

=== FILE: folders.dfy ===
/** The owner-scoped Folder handlers. Folders hold no reference to their
    Files: a File names its folder, and deleting the folder leaves that name
    dangling. */
module Folders {
  import opened Values
  import opened Http
  import opened Records
  import opened Paging
  import Catalog
  import Transfers

  const MsgFolderNotFound := "Folder not found"

  /** `POST /folders`. `newId` is the id the store assigns. */
  function CreateFolder(st: Store, userId: Id, name: string, newId: Id, now: Millis): (r: Step<Folder>)
    ensures r.reply.Ok? <==> newId !in st.folders
    ensures r.reply.Ok? ==>
      && r.reply.value == Folder(newId, name, userId, now, now)
      && r.store == st.(folders := st.folders[newId := r.reply.value])
    ensures r.reply.Fail? ==> r.store == st && r.reply == Fail(ServerError, Unhandled)
  {
    if newId in st.folders then Refuse(st, ServerError, Unhandled)
    else
      var folder := Folder(newId, name, userId, now, now);
      Step(st.(folders := st.folders[newId := folder]), Ok(folder))
  }

  /** `GET /folders/:id`. */
  function GetFolder(st: Store, userId: Id, id: Id): (r: Reply<Folder>)
    ensures r.Ok? <==> OwnsFolder(st, userId, id)
    ensures r.Ok? ==> r.value == st.folders[id]
    ensures r.Fail? ==> r == Fail(NotFound, MsgFolderNotFound)
  {
    if OwnsFolder(st, userId, id) then Ok(st.folders[id]) else Fail(NotFound, MsgFolderNotFound)
  }

  /** `PUT /folders/:id` (`findOneAndUpdate` with `{ name }`): the name
      changes, `updatedAt` is stamped, nothing else moves. */
  function UpdateFolder(st: Store, userId: Id, id: Id, name: string, now: Millis): (r: Step<Folder>)
    ensures !OwnsFolder(st, userId, id) ==> r.store == st && r.reply == Fail(NotFound, MsgFolderNotFound)
    ensures OwnsFolder(st, userId, id) ==>
      && r.reply.Ok?
      && r.reply.value == st.folders[id].(name := name, updatedAt := now)
      && r.store == st.(folders := st.folders[id := r.reply.value])
  {
    if !OwnsFolder(st, userId, id) then Refuse(st, NotFound, MsgFolderNotFound)
    else
      var folder := st.folders[id].(name := name, updatedAt := now);
      Step(st.(folders := st.folders[id := folder]), Ok(folder))
  }

  /** `DELETE /folders/:id`: removes the folder record only. */
  function DeleteFolder(st: Store, userId: Id, id: Id): (r: Step<()>)
    ensures r.reply.Ok? <==> OwnsFolder(st, userId, id)
    ensures r.reply.Fail? ==> r.store == st && r.reply == Fail(NotFound, MsgFolderNotFound)
    ensures r.reply.Ok? ==> r.store == st.(folders := st.folders - {id})
  {
    if !OwnsFolder(st, userId, id) then Refuse(st, NotFound, MsgFolderNotFound)
    else Step(st.(folders := st.folders - {id}), Ok(()))
  }

  lemma FolderOpsKeepValid(st: Store, userId: Id, id: Id, name: string, now: Millis)
    requires Valid(st)
    ensures Valid(CreateFolder(st, userId, name, id, now).store)
    ensures Valid(UpdateFolder(st, userId, id, name, now).store)
    ensures Valid(DeleteFolder(st, userId, id).store)
  {
  }

  /** A second delete of the same folder finds nothing. */
  lemma DeleteFolderTwice(st: Store, userId: Id, id: Id)
    ensures var once := DeleteFolder(st, userId, id).store;
      DeleteFolder(once, userId, id) == Step(once, Fail(NotFound, MsgFolderNotFound))
  {
  }

  /** Deleting a folder does not cascade: every File, including those that
      named the folder, is still listed exactly as before, under any
      filter — even filtering by the deleted folder's id. */
  lemma DeleteFolderKeepsFiles(st: Store, userId: Id, id: Id, q: Catalog.FileQuery, order: seq<Id>)
    requires Enumerates(order, st.files.Keys)
    ensures var st' := DeleteFolder(st, userId, id).store;
      && st'.files == st.files
      && Catalog.ListFiles(st', userId, q, order) == Catalog.ListFiles(st, userId, q, order)
  {
    var st' := DeleteFolder(st, userId, id).store;
    assert Catalog.Accepts(st', userId, q.filter) == Catalog.Accepts(st, userId, q.filter);
  }

  /** Copying into a deleted folder is refused as a missing target. */
  lemma DeletedFolderIsNoTarget(st: Store, userId: Id, id: Id, fileId: Id, newId: Id, now: Millis, rand: nat, copyOk: bool)
    requires OwnsFolder(st, userId, id) && Owns(st, userId, fileId) && id != ""
    ensures var st' := DeleteFolder(st, userId, id).store;
      Transfers.CopyFile(st', userId, fileId, Given(id), newId, now, rand, copyOk).reply
        == Fail(NotFound, Transfers.MsgFolderNotFound)
  {
  }

  // ------------------------------------------------------------------ list

  /** The caller's folders as a test on ids. */
  function OwnedBy(st: Store, userId: Id): Id -> bool {
    id => id in st.folders && st.folders[id].userId == userId
  }

  /** The ids of the caller's folders. */
  function OwnedFolderIds(st: Store, userId: Id): set<Id> {
    set id | id in st.folders && st.folders[id].userId == userId
  }

  /** `GET /folders`: one page of the caller's folders in sort order (`order`
      lists every stored folder id in that order), `total` counting all of
      them. */
  function ListFolders(st: Store, userId: Id, page: int, limit: int, order: seq<Id>): (r: Reply<Listing<Folder>>)
    requires Enumerates(order, st.folders.Keys)
    ensures r.Fail? <==> Skip(page, limit) < 0
    ensures r.Fail? ==> r == Fail(ServerError, Unhandled)
    ensures r.Ok? ==>
      var l := r.value;
      var w := Window(Select(order, OwnedBy(st, userId)), Skip(page, limit), limit);
      && |l.data| == |w|
      && (forall i :: 0 <= i < |w| ==> w[i] in st.folders && l.data[i] == st.folders[w[i]] && l.data[i].userId == userId)
      && (limit != 0 ==> |l.data| <= Abs(limit))
      && l.total == |OwnedFolderIds(st, userId)|
      && l.page == page && l.limit == limit
      && l.totalPages == TotalPages(l.total, limit)
  {
    var skip := Skip(page, limit);
    if skip < 0 then Fail(ServerError, Unhandled)
    else
      var mine := Select(order, OwnedBy(st, userId));
      SelectCount(order, st.folders.Keys, OwnedBy(st, userId), OwnedFolderIds(st, userId));
      var w := Window(mine, skip, limit);
      assert forall i :: 0 <= i < |w| ==> w[i] == mine[skip + i];
      Ok(Listing(seq(|w|, i requires 0 <= i < |w| => st.folders[w[i]]),
                 |mine|, page, limit, TotalPages(|mine|, limit)))
  }
}

=== FILE: http.dfy ===
/** What a handler sends back: a value with a success status, or one of the
    three failing statuses with its JSON `message`. */
module Http {

  /** The failing statuses the handlers send: 400, 404 and 500. */
  datatype Status = BadRequest | NotFound | ServerError

  datatype Reply<+T> = Ok(value: T) | Fail(status: Status, message: string)

  /** The message of the central error handler, which turns every exception
      a handler passes on into a 500. */
  const Unhandled := "Something went wrong!"
}

=== FILE: paging.dfy ===
/** Filtering and pagination as the listing handlers do them: a filtered
    scan of the records in sort order, a `.skip().limit()` window, and
    `totalPages = Math.ceil(total / limit)`. */
module Paging {
  import opened Values

  /** The response of a listing handler: one page plus the pagination block.
      `totalPages` is None when `Math.ceil(total / 0)` is not a finite
      number, which JSON renders as null. */
  datatype Listing<+T> = Listing(data: seq<T>, total: nat, page: int, limit: int, totalPages: Option<int>)

  function Abs(x: int): nat {
    if x < 0 then -x else x
  }

  /** `skip = (page - 1) * limit`. */
  function Skip(page: int, limit: int): int {
    (page - 1) * limit
  }

  /** `.skip(skip).limit(limit)` over a cursor: a limit of 0 means no limit,
      and a negative limit returns at most `-limit` records. */
  function Window<T>(items: seq<T>, skip: nat, limit: int): (w: seq<T>)
    ensures forall i :: 0 <= i < |w| ==> skip + i < |items| && w[i] == items[skip + i]
    ensures limit != 0 ==> |w| <= Abs(limit)
    ensures (limit == 0 || |w| < Abs(limit)) ==> skip + |w| >= |items|
  {
    if skip >= |items| then []
    else
      var rest := items[skip..];
      if limit == 0 || |rest| <= Abs(limit) then rest else rest[..Abs(limit)]
  }

  /** `Math.ceil(total / limit)`: None for a zero limit (Infinity or NaN),
      otherwise the least integer not below the quotient. */
  function TotalPages(total: nat, limit: int): (r: Option<int>)
    ensures r.None? <==> limit == 0
    ensures limit > 0 ==> (r.value - 1) * limit < total <= r.value * limit
    ensures limit < 0 ==> r.value * limit <= total < (r.value - 1) * limit
  {
    if limit == 0 then None
    else if limit > 0 then
      var q := (total + limit - 1) / limit;
      assert q * limit <= total + limit - 1 < (q + 1) * limit;
      Some(q)
    else
      var q := total / -limit;
      assert q * -limit <= total < (q + 1) * -limit;
      Some(-q)
  }

  lemma MulMonotone(a: int, b: int, c: nat)
    requires a <= b
    ensures a * c <= b * c
  {
  }

  /** With a positive limit, the record at position `j` of the filtered
      sequence is on page `j / limit + 1`, which is not past the last page. */
  lemma PageCovers<T>(items: seq<T>, limit: int, j: nat)
    requires limit > 0 && j < |items|
    ensures var page := j / limit + 1;
      && Skip(page, limit) >= 0
      && j % limit < |Window(items, Skip(page, limit), limit)|
      && Window(items, Skip(page, limit), limit)[j % limit] == items[j]
      && page <= TotalPages(|items|, limit).value
  {
    var q, r := j / limit, j % limit;
    assert j == q * limit + r && 0 <= r < limit;
    var page := q + 1;
    var skip := Skip(page, limit);
    assert skip == q * limit;
    MulMonotone(0, q, limit);
    var w := Window(items, skip, limit);
    assert skip + r == j;
    var tp := TotalPages(|items|, limit).value;
    assert |items| <= tp * limit;
    if tp <= q {
      MulMonotone(tp, q, limit);
    }
  }

  /** The records of `order` that `keep` accepts, in order. */
  function Select<K>(order: seq<K>, keep: K -> bool): (s: seq<K>)
    ensures |s| <= |order|
    ensures forall i :: 0 <= i < |s| ==> keep(s[i]) && s[i] in order
    decreases |order|
  {
    if |order| == 0 then []
    else (if keep(order[0]) then [order[0]] else []) + Select(order[1..], keep)
  }

  /** `order` lists the keys of a store, each exactly once. */
  predicate Enumerates<K>(order: seq<K>, keys: set<K>) {
    multiset(order) == multiset(keys)
  }

  lemma {:induction false} SelectMultiset<K>(order: seq<K>, keep: K -> bool, x: K)
    ensures multiset(Select(order, keep))[x] == if keep(x) then multiset(order)[x] else 0
    decreases |order|
  {
    if |order| > 0 {
      SelectMultiset(order[1..], keep, x);
      assert order == [order[0]] + order[1..];
    }
  }

  /** Selection from an enumeration enumerates exactly the accepted keys. */
  lemma SelectEnumerates<K>(order: seq<K>, keys: set<K>, keep: K -> bool, kept: set<K>)
    requires Enumerates(order, keys)
    requires forall k :: k in kept <==> k in keys && keep(k)
    ensures Enumerates(Select(order, keep), kept)
  {
    forall x
      ensures multiset(Select(order, keep))[x] == multiset(kept)[x]
    {
      SelectMultiset(order, keep, x);
    }
    assert multiset(Select(order, keep)) == multiset(kept);
  }

  /** An enumeration is as long as the set it enumerates. */
  lemma EnumerationSize<K>(order: seq<K>, keys: set<K>)
    requires Enumerates(order, keys)
    ensures |order| == |keys|
  {
    assert |multiset(order)| == |order|;
    assert |multiset(keys)| == |keys|;
  }

  /** The number of records a filtered scan yields is the number of keys
      the filter accepts. */
  lemma SelectCount<K>(order: seq<K>, keys: set<K>, keep: K -> bool, kept: set<K>)
    requires Enumerates(order, keys)
    requires forall k :: k in kept <==> k in keys && keep(k)
    ensures |Select(order, keep)| == |kept|
  {
    SelectEnumerates(order, keys, keep, kept);
    EnumerationSize(Select(order, keep), kept);
  }

  /** `s` respects the ordering `before` between every earlier and later
      element. */
  predicate Ordered<K>(s: seq<K>, before: (K, K) -> bool) {
    forall i, j :: 0 <= i < j < |s| ==> before(s[i], s[j])
  }

  /** Filtering keeps the sort order. */
  lemma {:induction false} SelectKeepsOrder<K>(order: seq<K>, keep: K -> bool, before: (K, K) -> bool)
    requires Ordered(order, before)
    ensures Ordered(Select(order, keep), before)
    decreases |order|
  {
    if |order| > 0 {
      var rest := Select(order[1..], keep);
      assert Ordered(order[1..], before) by {
        forall i, j | 0 <= i < j < |order[1..]|
          ensures before(order[1..][i], order[1..][j])
        {
          assert order[1..][i] == order[i + 1] && order[1..][j] == order[j + 1];
        }
      }
      SelectKeepsOrder(order[1..], keep, before);
      if keep(order[0]) {
        var s := [order[0]] + rest;
        forall i, j | 0 <= i < j < |s|
          ensures before(s[i], s[j])
        {
          if i == 0 {
            assert s[j] == rest[j - 1] && rest[j - 1] in order[1..];
            var k :| 0 <= k < |order[1..]| && order[1..][k] == rest[j - 1];
            assert order[1..][k] == order[k + 1];
          } else {
            assert s[i] == rest[i - 1] && s[j] == rest[j - 1];
          }
        }
      }
    }
  }

  /** A page of an ordered sequence is ordered. */
  lemma WindowKeepsOrder<K>(items: seq<K>, skip: nat, limit: int, before: (K, K) -> bool)
    requires Ordered(items, before)
    ensures Ordered(Window(items, skip, limit), before)
  {
    var w := Window(items, skip, limit);
    forall i, j | 0 <= i < j < |w|
      ensures before(w[i], w[j])
    {
      assert w[i] == items[skip + i] && w[j] == items[skip + j];
    }
  }
}

=== FILE: paths.dfy ===
/** The slice of Node's `path` module the handlers use, on '/'-separated
    paths: `dirname`, `extname` and `join`. */
module Paths {
  import opened Text

  /** A blob location on the byte store; the upload collaborator and the
      handlers never produce an empty one. */
  type Path = p: string | p != "" witness "upload"

  /** Whatever follows the last `c` in `s` holds no `c`. */
  lemma TailAfterLast(s: string, c: char)
    ensures c !in s[LastIndexOf(s, c) + 1..]
  {
    var i := LastIndexOf(s, c);
    var t := s[i + 1..];
    forall k | 0 <= k < |t|
      ensures t[k] != c
    {
      assert t[k] == s[i + 1 + k];
    }
  }

  /** A suffix of a string without `c` has no `c` either. */
  lemma SliceLacks(s: string, j: nat, c: char)
    requires j <= |s| && c !in s
    ensures c !in s[j..]
  {
    forall k | 0 <= k < |s[j..]|
      ensures s[j..][k] != c
    {
      assert s[j..][k] == s[j + k];
    }
  }

  /** The last path component. */
  function Basename(p: string): (b: string)
    ensures '/' !in b
    ensures |b| <= |p| && p[|p| - |b|..] == b
  {
    var i := LastIndexOf(p, '/');
    var b := p[i + 1..];
    assert |p| - |b| == i + 1;
    TailAfterLast(p, '/');
    b
  }

  /** Everything before the last '/', "." when there is none and "/" for a
      root-level name. */
  function Dirname(p: string): (d: string)
    ensures d != ""
  {
    var i := LastIndexOf(p, '/');
    if i < 0 then "." else if i == 0 then "/" else p[..i]
  }

  /** The extension of the last component: from its last '.' to the end,
      empty when there is no '.' or the only one leads the name. */
  function Extname(p: string): (e: string)
    ensures e == "" || (e[0] == '.' && '.' !in e[1..])
    ensures '/' !in e
    ensures |e| <= |p| && p[|p| - |e|..] == e
  {
    var b := Basename(p);
    var j := LastIndexOf(b, '.');
    if j <= 0 then ""
    else
      var e := b[j..];
      TailAfterLast(b, '.');
      assert e[1..] == b[j + 1..];
      assert '/' !in e by {
        SliceLacks(b, j, '/');
      }
      assert p[|p| - |e|..] == b[|b| - |e|..];
      e
  }

  /** `dir` and `base` joined by a separator; joining onto "." yields `base`. */
  function Join(dir: string, base: string): (p: Path)
    requires base != ""
    ensures |base| <= |p| && p[|p| - |base|..] == base
  {
    if dir == "." then base else dir + "/" + base
  }

  /** A name without separators lands in the directory it is joined onto. */
  lemma JoinDirname(dir: string, base: string)
    requires dir != "" && base != "" && '/' !in base
    ensures Dirname(Join(dir, base)) == dir
    ensures Basename(Join(dir, base)) == base
  {
    var p := Join(dir, base);
    if dir == "." {
      assert LastIndexOf(p, '/') == -1;
    } else {
      LastIndexOfSuffix(dir, "/" + base, '/');
      assert p == dir + ("/" + base);
      LastIndexUnique("/" + base, '/', 0);
      assert LastIndexOf(p, '/') == |dir|;
    }
  }

  /** A stem with neither separator nor dot has no extension. */
  lemma ExtnameOfPlainJoin(dir: string, stem: string)
    requires dir != "" && stem != "" && '/' !in stem && '.' !in stem
    ensures Extname(Join(dir, stem)) == ""
    ensures Dirname(Join(dir, stem)) == dir
  {
    JoinDirname(dir, stem);
    LastIndexUnique(stem, '.', -1);
  }

  /** A stem without separators followed by an extension reads back that
      extension. */
  lemma ExtnameOfSuffixedJoin(dir: string, stem: string, e: string)
    requires dir != "" && stem != "" && '/' !in stem && '/' !in e
    requires e != "" && e[0] == '.' && '.' !in e[1..]
    ensures Extname(Join(dir, stem + e)) == e
    ensures Dirname(Join(dir, stem + e)) == dir
  {
    var b := stem + e;
    JoinDirname(dir, b);
    assert forall k :: 1 <= k < |e| ==> e[k] != '.' by {
      forall k | 1 <= k < |e| ensures e[k] != '.' {
        assert e[k] == e[1..][k - 1];
      }
    }
    LastIndexUnique(e, '.', 0);
    LastIndexOfSuffix(stem, e, '.');
    assert b[|stem|..] == e;
  }

  /** Giving a file a new stem in the same directory keeps its extension,
      provided the stem has no separator and, when the old name had no
      extension, no dot either. */
  lemma ExtnamePreserved(from: string, stem: string)
    requires stem != "" && '/' !in stem
    requires Extname(from) == "" ==> '.' !in stem
    ensures Extname(Join(Dirname(from), stem + Extname(from))) == Extname(from)
    ensures Dirname(Join(Dirname(from), stem + Extname(from))) == Dirname(from)
  {
    var e := Extname(from);
    if e == "" {
      assert stem + e == stem;
      ExtnameOfPlainJoin(Dirname(from), stem);
    } else {
      ExtnameOfSuffixedJoin(Dirname(from), stem, e);
    }
  }
}

=== FILE: quota.dfy ===
/** The quota accountant behind `GET /files/overview`: the bytes a user's
    pdfs and images occupy on the byte store plus the UTF-8 length of their
    documents' text, against a fixed 15 GiB capacity. */
module Quota {
  import opened Values
  import opened Text
  import opened Paths
  import opened Records
  import opened Paging
  import Transfers
  import Catalog

  /** 15 GiB in bytes. */
  const TotalStorage: int := 15 * 1024 * 1024 * 1024

  /** What one File adds to the used space. A pdf or image with a path
      counts its size on the byte store, or nothing when `statSync` fails
      because the byte store does not hold it; a document with non-empty
      text counts the text's UTF-8 length. */
  function FileUsage(f: FileRec, disk: map<Path, nat>): (n: nat)
    ensures Transfers.HasBlob(f) && f.filePath.value in disk ==> n == disk[f.filePath.value]
    ensures Transfers.HasBlob(f) && f.filePath.value !in disk ==> n == 0
    ensures f.kind == Document ==> n == (if Present(f.content) then Utf8Length(f.content.value) else 0)
    ensures IsBinary(f.kind) && f.filePath.None? ==> n == 0
  {
    if f.filePath.Some? && IsBinary(f.kind) then
      if f.filePath.value in disk then disk[f.filePath.value] else 0
    else if f.kind == Document && Present(f.content) then Utf8Length(f.content.value)
    else 0
  }

  /** What the File under `id` adds to `userId`'s used space: nothing unless
      it is theirs. */
  function Charge(st: Store, userId: Id, id: Id): nat {
    if id in st.files && st.files[id].userId == userId then FileUsage(st.files[id], st.disk) else 0
  }

  /** The used space summed over the Files listed in `order`. */
  function Usage(order: seq<Id>, st: Store, userId: Id): nat
    decreases |order|
  {
    if |order| == 0 then 0
    else Usage(order[..|order| - 1], st, userId) + Charge(st, userId, order[|order| - 1])
  }

  lemma {:induction false} UsageAppend(a: seq<Id>, b: seq<Id>, st: Store, userId: Id)
    ensures Usage(a + b, st, userId) == Usage(a, st, userId) + Usage(b, st, userId)
    decreases |b|
  {
    if |b| == 0 {
      assert a + b == a;
    } else {
      var b' := b[..|b| - 1];
      assert (a + b)[..|a + b| - 1] == a + b';
      UsageAppend(a, b', st, userId);
    }
  }

  lemma UsageRemove(s: seq<Id>, i: nat, st: Store, userId: Id)
    requires i < |s|
    ensures Usage(s, st, userId) == Usage(s[..i] + s[i + 1..], st, userId) + Charge(st, userId, s[i])
  {
    assert s == s[..i] + [s[i]] + s[i + 1..];
    UsageAppend(s[..i] + [s[i]], s[i + 1..], st, userId);
    UsageAppend(s[..i], [s[i]], st, userId);
    UsageAppend(s[..i], s[i + 1..], st, userId);
    assert Usage([s[i]], st, userId) == Charge(st, userId, s[i]) by {
      assert [s[i]][..0] == [];
    }
  }

  /** Taking the same element out of two permutations of each other leaves
      two permutations of each other. */
  lemma RemoveMatching(a: seq<Id>, b: seq<Id>, i: nat)
    requires multiset(a) == multiset(b) && |a| > 0 && i < |b| && b[i] == a[|a| - 1]
    ensures multiset(a[..|a| - 1]) == multiset(b[..i] + b[i + 1..])
  {
    var x := a[|a| - 1];
    var a' := a[..|a| - 1];
    var b' := b[..i] + b[i + 1..];
    assert a == a' + [x];
    assert b == b[..i] + [x] + b[i + 1..];
    assert multiset(a) == multiset(a') + multiset{x};
    assert multiset(b) == multiset(b') + multiset{x};
    forall y
      ensures multiset(a')[y] == multiset(b')[y]
    {
      assert multiset(a)[y] == multiset(a')[y] + multiset{x}[y];
      assert multiset(b)[y] == multiset(b')[y] + multiset{x}[y];
    }
  }

  /** The sum does not depend on the order the Files are scanned in. */
  lemma {:induction false} UsageOrderIndependent(a: seq<Id>, b: seq<Id>, st: Store, userId: Id)
    requires multiset(a) == multiset(b)
    ensures Usage(a, st, userId) == Usage(b, st, userId)
    decreases |a|
  {
    if |a| > 0 {
      var x := a[|a| - 1];
      assert x in multiset(b);
      var i :| 0 <= i < |b| && b[i] == x;
      RemoveMatching(a, b, i);
      UsageOrderIndependent(a[..|a| - 1], b[..i] + b[i + 1..], st, userId);
      UsageRemove(b, i, st, userId);
    } else {
      assert |b| == |multiset(b)|;
    }
  }

  /** Two scans of the same store report the same usage. */
  lemma UsageOfEnumerations(a: seq<Id>, b: seq<Id>, st: Store, userId: Id)
    requires Enumerates(a, st.files.Keys) && Enumerates(b, st.files.Keys)
    ensures Usage(a, st, userId) == Usage(b, st, userId)
  {
    UsageOrderIndependent(a, b, st, userId);
  }

  /** A change that leaves every listed File's charge alone leaves the sum
      alone. */
  lemma {:induction false} UsageFrame(order: seq<Id>, st: Store, st': Store, userId: Id)
    requires forall i :: 0 <= i < |order| ==> Charge(st, userId, order[i]) == Charge(st', userId, order[i])
    ensures Usage(order, st, userId) == Usage(order, st', userId)
    decreases |order|
  {
    if |order| > 0 {
      UsageFrame(order[..|order| - 1], st, st', userId);
    }
  }

  /** An id listed once in an enumeration of a key set is absent from the
      rest of it. */
  lemma EnumeratedOnce(order: seq<Id>, keys: set<Id>, i: nat)
    requires Enumerates(order, keys) && i < |order|
    ensures order[i] !in order[..i] + order[i + 1..]
  {
    var x := order[i];
    assert order == order[..i] + [x] + order[i + 1..];
    assert multiset(order)[x] == multiset(order[..i] + order[i + 1..])[x] + 1;
    assert multiset(keys)[x] == 1;
  }

  /** Appending text to a document through an update raises its owner's
      used space by exactly the UTF-8 length of the appended text. */
  lemma AppendingTextCharges(st: Store, userId: Id, id: Id, extra: string, now: Millis, order: seq<Id>)
    requires Owns(st, userId, id) && st.files[id].kind == Document && st.files[id].content.Some?
    requires Enumerates(order, st.files.Keys)
    ensures var text := st.files[id].content.value;
      var st' := Catalog.UpdateFile(st, userId, id, Catalog.FilePatch(Undefined, Given(text + extra), None), now).store;
      Usage(order, st', userId) == Usage(order, st, userId) + Utf8Length(extra)
  {
    var text := st.files[id].content.value;
    var st' := Catalog.UpdateFile(st, userId, id, Catalog.FilePatch(Undefined, Given(text + extra), None), now).store;
    assert id in multiset(order);
    var i :| 0 <= i < |order| && order[i] == id;
    var rest := order[..i] + order[i + 1..];
    EnumeratedOnce(order, st.files.Keys, i);
    forall j | 0 <= j < |rest|
      ensures Charge(st, userId, rest[j]) == Charge(st', userId, rest[j])
    {
      assert rest[j] != id;
    }
    UsageFrame(rest, st, st', userId);
    UsageRemove(order, i, st, userId);
    UsageRemove(order, i, st', userId);
    Utf8LengthAppend(text, extra);
    assert st'.files[id].content == Some(text + extra);
  }

  /** `formatBytes`'s units. */
  const Units: seq<string> := ["B", "KB", "MB", "GB"]

  function Pow1024(n: nat): (p: nat)
    ensures p >= 1
  {
    if n == 0 then 1 else 1024 * Pow1024(n - 1)
  }

  /** `formatBytes` without its final `toFixed(2)`: divide by 1024 while the
      size is at least 1024 and a larger unit exists. Division by 1024 is
      exact in binary floating point, so the scaled size is the exact
      quotient. */
  method Humanize(bytes: int) returns (scaled: real, unit: nat)
    ensures unit < |Units|
    ensures scaled * Pow1024(unit) as real == bytes as real
    ensures unit > 0 ==> bytes >= Pow1024(unit)
    ensures unit < |Units| - 1 ==> bytes < Pow1024(unit + 1)
  {
    scaled := bytes as real;
    unit := 0;
    while scaled >= 1024.0 && unit < |Units| - 1
      invariant unit < |Units|
      invariant scaled * Pow1024(unit) as real == bytes as real
      invariant unit > 0 ==> bytes >= Pow1024(unit)
      decreases |Units| - unit
    {
      assert bytes as real >= 1024.0 * Pow1024(unit) as real;
      scaled := scaled / 1024.0;
      unit := unit + 1;
    }
    if unit < |Units| - 1 {
      assert scaled < 1024.0;
      assert bytes as real < 1024.0 * Pow1024(unit) as real;
    }
  }

  /** One amount of the overview: bytes, and the scaled figure with its
      unit. */
  datatype Amount = Amount(bytes: int, scaled: real, unit: string)

  datatype Overview = Overview(totalStorage: Amount, usedSpace: Amount, availableSpace: Amount)

  /** `formatBytes` for one amount: the unit is the largest one the size
      reaches (B below 1 KiB, GB from 1 GiB up), and the scaled figure is
      the size in that unit. */
  method Describe(bytes: int) returns (a: Amount)
    ensures a.bytes == bytes && a.unit in Units
    ensures exists k ::
              && 0 <= k < |Units| && a.unit == Units[k]
              && a.scaled * Pow1024(k) as real == bytes as real
              && (k > 0 ==> bytes >= Pow1024(k))
              && (k < |Units| - 1 ==> bytes < Pow1024(k + 1))
    ensures a.unit == "B" <==> bytes < 1024
    ensures a.unit == "KB" <==> 1024 <= bytes < 1024 * 1024
    ensures a.unit == "MB" <==> 1024 * 1024 <= bytes < 1024 * 1024 * 1024
    ensures a.unit == "GB" <==> bytes >= 1024 * 1024 * 1024
  {
    var scaled, unit := Humanize(bytes);
    a := Amount(bytes, scaled, Units[unit]);
    assert Pow1024(1) == 1024;
    assert Pow1024(2) == 1024 * 1024;
    assert Pow1024(3) == 1024 * 1024 * 1024;
  }

  /** `GET /files/overview`. `order` lists every stored File id (the scan's
      order does not matter, see `UsageOrderIndependent`). `availableSpace`
      goes negative once a user is over quota. */
  method StorageOverview(st: Store, userId: Id, order: seq<Id>) returns (ov: Overview)
    requires Enumerates(order, st.files.Keys)
    ensures ov.totalStorage.bytes == TotalStorage
    ensures ov.usedSpace.bytes == Usage(order, st, userId)
    ensures ov.availableSpace.bytes == TotalStorage - ov.usedSpace.bytes
  {
    var used := 0;
    var i := 0;
    while i < |order|
      invariant i <= |order|
      invariant used == Usage(order[..i], st, userId)
    {
      assert order[..i + 1][..i] == order[..i];
      var id := order[i];
      if id in st.files && st.files[id].userId == userId {
        used := used + FileUsage(st.files[id], st.disk);
      }
      i := i + 1;
    }
    assert order[..|order|] == order;
    var total := Describe(TotalStorage);
    var usedAmount := Describe(used);
    var available := Describe(TotalStorage - used);
    ov := Overview(total, usedAmount, available);
  }

  /** Adding one record whose arrival changes no other File's charge adds
      exactly its own charge to the usage. */
  lemma UsageOfInsert(st: Store, st': Store, userId: Id, newId: Id, order: seq<Id>, order': seq<Id>)
    requires newId !in st.files && newId in st'.files
    requires st'.files == st.files[newId := st'.files[newId]]
    requires Enumerates(order, st.files.Keys) && Enumerates(order', st'.files.Keys)
    requires forall k :: k in st.files ==> Charge(st, userId, k) == Charge(st', userId, k)
    ensures Usage(order', st', userId) == Usage(order, st, userId) + Charge(st', userId, newId)
  {
    assert multiset(order') == multiset(order + [newId]) by {
      assert st'.files.Keys == st.files.Keys + {newId};
      assert multiset(st'.files.Keys) == multiset(st.files.Keys) + multiset{newId};
    }
    UsageOrderIndependent(order', order + [newId], st', userId);
    UsageAppend(order, [newId], st', userId);
    assert Usage([newId], st', userId) == Charge(st', userId, newId) by {
      assert [newId][..0] == [];
    }
    forall i | 0 <= i < |order|
      ensures Charge(st, userId, order[i]) == Charge(st', userId, order[i])
    {
      assert order[i] in multiset(order);
    }
    UsageFrame(order, st, st', userId);
  }

  /** Duplicating a File the caller owns charges them once more for it: a
      document's text by value, a blob's bytes at their fresh path (provided
      nothing was stored at that path before). */
  lemma DuplicateChargesQuota(st: Store, userId: Id, id: Id, newId: Id, now: Millis, rand: nat, copyOk: bool,
                              order: seq<Id>, order': seq<Id>)
    requires Owns(st, userId, id)
    requires Enumerates(order, st.files.Keys)
    requires Transfers.HasBlob(st.files[id]) ==>
      var p := Transfers.CopyPath(st.files[id].filePath.value, now, rand);
      && p !in st.disk
      && forall k :: k in st.files ==> st.files[k].filePath != Some(p)
    requires Transfers.DuplicateFile(st, userId, id, newId, now, rand, copyOk).reply.Ok?
    requires Enumerates(order', Transfers.DuplicateFile(st, userId, id, newId, now, rand, copyOk).store.files.Keys)
    ensures var st' := Transfers.DuplicateFile(st, userId, id, newId, now, rand, copyOk).store;
      Usage(order', st', userId) == Usage(order, st, userId) + FileUsage(st.files[id], st.disk)
  {
    var st' := Transfers.DuplicateFile(st, userId, id, newId, now, rand, copyOk).store;
    var f := st.files[id];
    forall k | k in st.files
      ensures Charge(st, userId, k) == Charge(st', userId, k)
    {
      assert st'.files[k] == st.files[k];
    }
    UsageOfInsert(st, st', userId, newId, order, order');
  }
}

=== FILE: records.dfy ===
/** The persisted records — File, Folder and ShareLink — and the store that
    holds them next to the byte store's contents. */
module Records {
  import opened Values
  import opened Http
  import opened Paths

  /** Record identifiers (ObjectIds) and user identities. */
  type Id = string

  /** Milliseconds since the epoch. */
  type Millis = int

  /** The `type` enum of a File. */
  datatype FileType = Document | Pdf | Image

  function TypeName(t: FileType): (s: string)
    ensures s != ""
  {
    match t
    case Document => "document"
    case Pdf => "pdf"
    case Image => "image"
  }

  /** The enum check on a request's `type` field: exactly the three names
      are accepted. */
  function ParseType(s: string): (r: Option<FileType>)
    ensures r.Some? ==> TypeName(r.value) == s
    ensures r.None? ==> forall t: FileType :: TypeName(t) != s
  {
    if s == "document" then Some(Document)
    else if s == "pdf" then Some(Pdf)
    else if s == "image" then Some(Image)
    else None
  }

  lemma ParseTypeName(t: FileType)
    ensures ParseType(TypeName(t)) == Some(t)
  {
  }

  /** The two types whose bytes live on the byte store. */
  predicate IsBinary(t: FileType) {
    t == Pdf || t == Image
  }

  datatype FileRec = FileRec(
    id: Id,
    name: string,
    kind: FileType,
    folderId: Option<Id>,
    userId: Id,
    filePath: Option<Path>,
    content: Option<string>,
    isFavorite: bool,
    createdAt: Millis,
    updatedAt: Millis)

  /** A document keeps its text inline and has no blob; a pdf or image has
      a blob and no inline text. */
  predicate WellShaped(f: FileRec) {
    if f.kind == Document then f.filePath == None
    else f.filePath.Some? && f.content == None
  }

  /** A new File as the schema builds it: `folderId`, `filePath` and
      `content` default to null, `isFavorite` to false, and both timestamps
      are the creation time. */
  function NewFile(id: Id, name: string, kind: FileType, folderId: Option<Id>, userId: Id, now: Millis): (f: FileRec)
    ensures f.id == id && f.name == name && f.kind == kind && f.folderId == folderId && f.userId == userId
    ensures f.filePath == None && f.content == None && !f.isFavorite
    ensures f.createdAt == now && f.updatedAt == now
  {
    FileRec(id, name, kind, folderId, userId, None, None, false, now, now)
  }

  /** The timestamp rule of `save()` on an existing record: `updatedAt`
      moves to `now` exactly when some field changed. */
  function Touch(before: FileRec, after: FileRec, now: Millis): (f: FileRec)
    requires after.updatedAt == before.updatedAt
    ensures f == before <==> after == before
    ensures f.(updatedAt := before.updatedAt) == after
    ensures f.updatedAt == (if after == before then before.updatedAt else now)
  {
    if after == before then before else after.(updatedAt := now)
  }

  datatype Folder = Folder(id: Id, name: string, userId: Id, createdAt: Millis, updatedAt: Millis)

  datatype ShareLink = ShareLink(id: Id, fileId: Id, token: string, expiresAt: Millis, createdAt: Millis, updatedAt: Millis)

  /** The metadata store and the byte store. Share links are indexed by
      their token, which the schema declares unique. The byte store maps
      each path to its size in bytes. */
  datatype Store = Store(
    files: map<Id, FileRec>,
    folders: map<Id, Folder>,
    links: map<string, ShareLink>,
    disk: map<Path, nat>)

  /** Every record sits under its own key, every File is well shaped, and
      every link carries its (required, hence non-empty) token. */
  predicate Valid(st: Store) {
    && (forall id :: id in st.files ==> st.files[id].id == id && WellShaped(st.files[id]))
    && (forall id :: id in st.folders ==> st.folders[id].id == id)
    && (forall t :: t in st.links ==> st.links[t].token == t && t != "")
  }

  /** The owner-scoped lookup `findOne({_id: id, userId})` finds a File. */
  predicate Owns(st: Store, userId: Id, id: Id) {
    id in st.files && st.files[id].userId == userId
  }

  /** The same lookup for a Folder. */
  predicate OwnsFolder(st: Store, userId: Id, id: Id) {
    id in st.folders && st.folders[id].userId == userId
  }

  /** A handler's effect: the store afterwards and what it replies. */
  datatype Step<+T> = Step(store: Store, reply: Reply<T>)

  /** A handler that fails before touching the store. A definition, used
      as a shorthand by every handler. */
  function Refuse<T>(st: Store, status: Status, message: string): Step<T>
  {
    Step(st, Fail(status, message))
  }

  /** `save()` of a new File: the schema's required validator rejects an
      empty name and the primary-key index rejects an id that is already
      taken; either surfaces as a 500. */
  function InsertFile(st: Store, f: FileRec): (r: Reply<Store>)
    ensures r.Ok? <==> f.name != "" && f.id !in st.files
    ensures r.Ok? ==> r.value == st.(files := st.files[f.id := f])
    ensures r.Fail? ==> r == Fail(ServerError, Unhandled)
  {
    if f.name == "" || f.id in st.files then Fail(ServerError, Unhandled)
    else Ok(st.(files := st.files[f.id := f]))
  }

  lemma InsertKeepsValid(st: Store, f: FileRec)
    requires Valid(st) && WellShaped(f)
    requires f.id !in st.files
    ensures Valid(st.(files := st.files[f.id := f]))
  {
  }
}

=== FILE: sharing.dfy ===
/** Share links: issuing a time-limited token for one File, and resolving
    it. Expiry is decided at read time by comparing `expiresAt` with the
    clock; nothing ever removes a link. */
module Sharing {
  import opened Values
  import opened Http
  import opened Records
  import opened Views
  import Catalog

  const DefaultDays := 7
  const MinDays := 1
  const MaxDays := 30
  const MsPerDay := 24 * 60 * 60 * 1000
  const MsgBadExpiry := "Expiration must be between 1 and 30 days"
  const MsgLinkInvalid := "Share link is invalid or expired"

  /** What issuing answers: the public URL and the expiry. */
  datatype Grant = Grant(shareUrl: string, expiresAt: Millis)

  /** The lifetime in days a request asks for, `7` when it names none. A
      null lifetime compares as 0 and so is out of range. */
  function RequestedDays(expiresInDays: Field<int>): int {
    match expiresInDays
    case Undefined => DefaultDays
    case Null => 0
    case Given(d) => d
  }

  predicate LinkIdTaken(st: Store, linkId: Id) {
    exists t :: t in st.links && st.links[t].id == linkId
  }

  /** `POST /files/:id/share`. `token` stands for the random token,
      `linkId` for the new link's id and `origin` for
      `${req.protocol}://${req.get("host")}`. A token that is already in
      use violates the unique index and surfaces as a 500. */
  function ShareFile(st: Store, userId: Id, id: Id, expiresInDays: Field<int>, now: Millis,
                     token: string, linkId: Id, origin: string): (r: Step<Grant>)
    ensures var d := RequestedDays(expiresInDays);
      !(MinDays <= d <= MaxDays) ==> r.store == st && r.reply == Fail(BadRequest, MsgBadExpiry)
    ensures var d := RequestedDays(expiresInDays);
      MinDays <= d <= MaxDays && !Owns(st, userId, id) ==> r.store == st && r.reply == Fail(NotFound, Catalog.MsgFileNotFound)
    ensures r.reply.Ok? <==>
      && MinDays <= RequestedDays(expiresInDays) <= MaxDays && Owns(st, userId, id)
      && token != "" && token !in st.links && !LinkIdTaken(st, linkId)
    ensures MinDays <= RequestedDays(expiresInDays) <= MaxDays && Owns(st, userId, id)
            && (token == "" || token in st.links || LinkIdTaken(st, linkId)) ==>
      r.reply == Fail(ServerError, Unhandled)
    ensures r.reply.Fail? ==> r.store == st
    ensures r.reply.Ok? ==>
      var expiresAt := now + RequestedDays(expiresInDays) * MsPerDay;
      && r.store == st.(links := st.links[token := ShareLink(linkId, id, token, expiresAt, now, now)])
      && r.reply.value == Grant(origin + SharePrefix + token, expiresAt)
  {
    var d := RequestedDays(expiresInDays);
    if d < MinDays || d > MaxDays then Refuse(st, BadRequest, MsgBadExpiry)
    else if !Owns(st, userId, id) then Refuse(st, NotFound, Catalog.MsgFileNotFound)
    // the token is required and unique, the id unique; a violation reaches the central handler
    else if token == "" || token in st.links || LinkIdTaken(st, linkId) then Refuse(st, ServerError, Unhandled)
    else
      var expiresAt := now + d * MsPerDay;
      var link := ShareLink(linkId, id, token, expiresAt, now, now);
      Step(st.(links := st.links[token := link]), Ok(Grant(origin + SharePrefix + token, expiresAt)))
  }

  lemma ShareKeepsValid(st: Store, userId: Id, id: Id, expiresInDays: Field<int>, now: Millis,
                        token: string, linkId: Id, origin: string)
    requires Valid(st)
    ensures Valid(ShareFile(st, userId, id, expiresInDays, now, token, linkId, origin).store)
  {
  }

  /** A token resolves at `now` when its link exists, has not expired, and
      its File still exists. */
  predicate Live(st: Store, token: string, now: Millis) {
    && token in st.links
    && st.links[token].expiresAt > now
    && st.links[token].fileId in st.files
  }

  /** `GET /files/share/:token`: the target File, with its URL pointing at
      the share route. An unknown, expired or dangling token all get the
      same 404. */
  function GetSharedFile(st: Store, token: string, now: Millis): (r: Reply<FileView>)
    ensures r.Ok? <==> Live(st, token, now)
    ensures r.Fail? ==> r == Fail(NotFound, MsgLinkInvalid)
    ensures r.Ok? ==> r.value == SharedView(st.files[st.links[token].fileId], token)
  {
    if Live(st, token, now) then Ok(SharedView(st.files[st.links[token].fileId], token))
    else Fail(NotFound, MsgLinkInvalid)
  }

  /** `GET /files/share/:token/content`: the target's bytes, with the same
      404 for a document as for a dead token. */
  function GetSharedContent(st: Store, token: string, now: Millis): (r: Reply<Catalog.Blob>)
    ensures !Live(st, token, now) || st.files[st.links[token].fileId].kind == Document ==>
      r == Fail(NotFound, MsgLinkInvalid)
    ensures Live(st, token, now) && st.files[st.links[token].fileId].kind != Document ==>
      r == Catalog.SendFile(st, st.files[st.links[token].fileId])
  {
    if !Live(st, token, now) then Fail(NotFound, MsgLinkInvalid)
    else
      var f := st.files[st.links[token].fileId];
      if f.kind == Document then Fail(NotFound, MsgLinkInvalid) else Catalog.SendFile(st, f)
  }

  /** A freshly issued link resolves exactly until its expiry: at any time
      before `expiresAt` the holder sees the File, from then on a 404. */
  lemma ShareThenResolve(st: Store, userId: Id, id: Id, expiresInDays: Field<int>, now: Millis,
                         token: string, linkId: Id, origin: string, at: Millis)
    requires ShareFile(st, userId, id, expiresInDays, now, token, linkId, origin).reply.Ok?
    ensures var r := ShareFile(st, userId, id, expiresInDays, now, token, linkId, origin);
      var seen := GetSharedFile(r.store, token, at);
      && (seen.Ok? <==> at < r.reply.value.expiresAt)
      && (seen.Ok? ==> seen.value == SharedView(st.files[id], token))
  {
  }

  /** Issuing with the default lifetime gives seven days. */
  lemma DefaultLifetime(st: Store, userId: Id, id: Id, now: Millis, token: string, linkId: Id, origin: string)
    requires ShareFile(st, userId, id, Undefined, now, token, linkId, origin).reply.Ok?
    ensures ShareFile(st, userId, id, Undefined, now, token, linkId, origin).reply.value.expiresAt == now + 604_800_000
  {
  }

  /** Once expired, a link stays expired. */
  lemma ExpiryIsFinal(st: Store, token: string, t1: Millis, t2: Millis)
    requires t1 <= t2 && token in st.links && st.links[token].expiresAt <= t1
    ensures GetSharedFile(st, token, t2) == Fail(NotFound, MsgLinkInvalid)
    ensures GetSharedContent(st, token, t2) == Fail(NotFound, MsgLinkInvalid)
  {
  }

  /** Deleting a File leaves its links in place but dead: they answer the
      same 404 as an unknown token. */
  lemma DeleteKillsLinks(st: Store, userId: Id, id: Id, unlinkOk: bool, token: string, now: Millis)
    requires Owns(st, userId, id)
    requires token in st.links && st.links[token].fileId == id
    ensures var st' := Catalog.DeleteFile(st, userId, id, unlinkOk).store;
      && token in st'.links
      && GetSharedFile(st', token, now) == Fail(NotFound, MsgLinkInvalid)
      && GetSharedContent(st', token, now) == Fail(NotFound, MsgLinkInvalid)
  {
  }

  /** Create a document "Notes" with text "Hello", share it for the default
      seven days: the holder reads "Hello" until the link expires and a 404
      from then on. */
  lemma NotesScenario(st: Store, userId: Id, newId: Id, now: Millis, token: string, linkId: Id, origin: string, later: Millis)
    requires newId !in st.files && token != "" && token !in st.links && !LinkIdTaken(st, linkId)
    requires later >= now + DefaultDays * MsPerDay
    ensures var c := Catalog.CreateFile(st, userId, Catalog.CreateRequest(Given("Notes"), Given("document"), None, Given("Hello")), None, newId, now);
      && c.reply.Ok?
      && var s := ShareFile(c.store, userId, newId, Undefined, now, token, linkId, origin);
      && s.reply.Ok?
      && s.reply.value.expiresAt == now + 604_800_000
      && GetSharedFile(s.store, token, now).Ok?
      && GetSharedFile(s.store, token, now).value.file.content == Some("Hello")
      && GetSharedFile(s.store, token, now).value.contentUrl == None
      && GetSharedFile(s.store, token, later) == Fail(NotFound, MsgLinkInvalid)
  {
    var req := Catalog.CreateRequest(Given("Notes"), Given("document"), None, Given("Hello"));
    assert Catalog.RequestedType(req) == Some(Document);
  }

  /** Issuing from someone else's File is refused like a missing File. */
  lemma ForeignFilesCannotBeShared(st: Store, userId: Id, id: Id, now: Millis, token: string, linkId: Id, origin: string)
    requires id in st.files && st.files[id].userId != userId
    ensures ShareFile(st, userId, id, Undefined, now, token, linkId, origin) == Step(st, Fail(NotFound, Catalog.MsgFileNotFound))
  {
  }
}

=== FILE: text.dfy ===
/** String helpers the handlers rely on: decimal rendering of numbers,
    last-occurrence search, and the UTF-8 byte length of a string. */
module Text {

  /** The index of the last `c` in `s`, or -1 when there is none. */
  function LastIndexOf(s: string, c: char): (r: int)
    ensures -1 <= r < |s|
    ensures r >= 0 ==> s[r] == c
    ensures forall k :: r < k < |s| ==> s[k] != c
    decreases |s|
  {
    if |s| == 0 then -1
    else if s[|s| - 1] == c then |s| - 1
    else LastIndexOf(s[..|s| - 1], c)
  }

  /** The contract of `LastIndexOf` determines its result. */
  lemma LastIndexUnique(s: string, c: char, r: int)
    requires -1 <= r < |s|
    requires r >= 0 ==> s[r] == c
    requires forall k :: r < k < |s| ==> s[k] != c
    ensures LastIndexOf(s, c) == r
  {
  }

  /** A `c` in the suffix wins over every `c` in the prefix. */
  lemma {:induction false} LastIndexOfSuffix(a: string, b: string, c: char)
    requires c in b
    ensures LastIndexOf(a + b, c) == |a| + LastIndexOf(b, c)
  {
    var q := LastIndexOf(b, c);
    var s := a + b;
    forall k | |a| + q < k < |s|
      ensures s[k] != c
    {
      assert s[k] == b[k - |a|];
    }
    LastIndexUnique(s, c, |a| + q);
  }

  function Digit(d: nat): (c: char)
    requires d < 10
    ensures '0' <= c <= '9'
    ensures c as int - '0' as int == d
  {
    (d + '0' as int) as char
  }

  /** The decimal rendering of a natural number, as `${n}` produces it. */
  function Decimal(n: nat): (s: string)
    ensures |s| >= 1
    ensures forall i :: 0 <= i < |s| ==> '0' <= s[i] <= '9'
    ensures n >= 10 ==> s[0] != '0'
    decreases n
  {
    if n < 10 then [Digit(n)] else Decimal(n / 10) + [Digit(n % 10)]
  }

  /** Reads a string of decimal digits back into a number. */
  function DecimalValue(s: string): nat
    requires forall i :: 0 <= i < |s| ==> '0' <= s[i] <= '9'
    decreases |s|
  {
    if |s| == 0 then 0
    else DecimalValue(s[..|s| - 1]) * 10 + (s[|s| - 1] as int - '0' as int)
  }

  /** Rendering then reading a number gives it back. */
  lemma {:induction false} DecimalRoundTrip(n: nat)
    ensures DecimalValue(Decimal(n)) == n
    decreases n
  {
    var s := Decimal(n);
    if n >= 10 {
      DecimalRoundTrip(n / 10);
      assert s[..|s| - 1] == Decimal(n / 10);
    }
  }

  /** Distinct numbers have distinct renderings. */
  lemma DecimalInjective(m: nat, n: nat)
    requires Decimal(m) == Decimal(n)
    ensures m == n
  {
    DecimalRoundTrip(m);
    DecimalRoundTrip(n);
  }

  /** Bytes UTF-8 spends on one Unicode scalar value. */
  function Utf8Width(c: char): (w: nat)
    ensures 1 <= w <= 4
    ensures w == 1 <==> c as int < 0x80
  {
    if c as int < 0x80 then 1
    else if c as int < 0x800 then 2
    else if c as int < 0x1_0000 then 3
    else 4
  }

  /** The UTF-8 byte length of a string (`Buffer.byteLength(s, "utf8")`). */
  function Utf8Length(s: string): (n: nat)
    ensures |s| <= n <= 4 * |s|
    ensures n == 0 <==> s == ""
    decreases |s|
  {
    if |s| == 0 then 0 else Utf8Length(s[..|s| - 1]) + Utf8Width(s[|s| - 1])
  }

  /** The byte length of a concatenation is the sum of the byte lengths. */
  lemma {:induction false} Utf8LengthAppend(a: string, b: string)
    ensures Utf8Length(a + b) == Utf8Length(a) + Utf8Length(b)
    decreases |b|
  {
    if |b| > 0 {
      var b' := b[..|b| - 1];
      assert (a + b)[..|a + b| - 1] == a + b';
      Utf8LengthAppend(a, b');
    } else {
      assert a + b == a;
    }
  }

  /** A common prefix cancels. */
  lemma PrefixCancel(a: string, x: string, y: string)
    requires a + x == a + y
    ensures x == y
  {
    assert x == (a + x)[|a|..];
    assert y == (a + y)[|a|..];
  }

  /** A common suffix cancels. */
  lemma SuffixCancel(x: string, y: string, b: string)
    requires x + b == y + b
    ensures x == y
  {
    assert x == (x + b)[..|x|];
    assert y == (y + b)[..|y|];
  }
}

=== FILE: transfers.dfy ===
/** The handlers that move or copy a File's bytes: rename, duplicate and
    copy. Each performs the byte-store step first and writes metadata only
    after it succeeds. */
module Transfers {
  import opened Values
  import opened Http
  import opened Text
  import opened Paths
  import opened Records
  import opened Views
  import Catalog

  const MsgNameRequired := "New name is required"
  const MsgRenameFailed := "Failed to rename file on disk"
  const MsgDuplicateFailed := "Failed to duplicate file on disk"
  const MsgCopyFailed := "Failed to copy file on disk"
  const MsgFolderRequired := "Target folderId is required"
  const MsgFolderNotFound := "Target folder not found"
  const CopyPrefix := "Copy of "

  /** `fs.renameSync(from, to)` on a path the byte store holds: the bytes
      move, replacing whatever sat at `to`. */
  function MoveBlob(disk: map<Path, nat>, from: Path, to: Path): (d: map<Path, nat>)
    requires from in disk
    ensures to in d && d[to] == disk[from]
    ensures from != to ==> from !in d
    ensures forall p :: p != from && p != to ==> (p in d <==> p in disk) && (p in d ==> d[p] == disk[p])
  {
    (disk - {from})[to := disk[from]]
  }

  /** `fs.copyFileSync(from, to)` on a path the byte store holds. */
  function CopyBlob(disk: map<Path, nat>, from: Path, to: Path): (d: map<Path, nat>)
    requires from in disk
    ensures to in d && d[to] == disk[from]
    ensures forall p :: p != to ==> (p in d <==> p in disk) && (p in d ==> d[p] == disk[p])
  {
    disk[to := disk[from]]
  }

  /** Whether a File's bytes live on the byte store: a pdf or image with a
      path. */
  predicate HasBlob(f: FileRec) {
    f.filePath.Some? && IsBinary(f.kind)
  }

  // ---------------------------------------------------------------- rename

  /** `join(dirname(from), name + extname(from))`. */
  function RenamedPath(from: Path, name: string): Path
    requires name != ""
  {
    Join(Dirname(from), name + Extname(from))
  }

  /** The record a successful rename writes, before timestamps. */
  function Renamed(f: FileRec, name: string): (g: FileRec)
    requires name != ""
    ensures g.name == name
    ensures g.filePath == if HasBlob(f) then Some(RenamedPath(f.filePath.value, name)) else f.filePath
    ensures g.(name := f.name, filePath := f.filePath) == f
  {
    if HasBlob(f) then f.(name := name, filePath := Some(RenamedPath(f.filePath.value, name)))
    else f.(name := name)
  }

  /** Whether the byte-store half of a rename succeeds. */
  predicate RenameGoesThrough(st: Store, f: FileRec, renameOk: bool) {
    HasBlob(f) ==> renameOk && f.filePath.value in st.disk
  }

  /** `PUT /files/:id/rename`. `renameOk` is whether `renameSync` succeeds
      on a path the byte store holds. A failed disk rename answers 500 and
      leaves every record and every byte as it was. */
  function RenameFile(st: Store, userId: Id, id: Id, name: Field<string>, now: Millis, renameOk: bool): (r: Step<FileView>)
    ensures !Truthy(name) ==> r.store == st && r.reply == Fail(BadRequest, MsgNameRequired)
    ensures Truthy(name) && !Owns(st, userId, id) ==> r.store == st && r.reply == Fail(NotFound, Catalog.MsgFileNotFound)
    ensures Truthy(name) && Owns(st, userId, id) && !RenameGoesThrough(st, st.files[id], renameOk) ==>
      r.store == st && r.reply == Fail(ServerError, MsgRenameFailed)
    ensures r.reply.Ok? <==> Truthy(name) && Owns(st, userId, id) && RenameGoesThrough(st, st.files[id], renameOk)
    ensures r.reply.Ok? ==>
      var f := st.files[id];
      && id in r.store.files
      && r.store.files == st.files[id := r.store.files[id]]
      && r.store.files[id] == Touch(f, Renamed(f, name.value), now)
      && r.store.folders == st.folders && r.store.links == st.links
      && r.store.disk == (if HasBlob(f) then MoveBlob(st.disk, f.filePath.value, RenamedPath(f.filePath.value, name.value)) else st.disk)
      && r.reply.value == OwnerView(r.store.files[id])
  {
    if !Truthy(name) then Refuse(st, BadRequest, MsgNameRequired)
    else if !Owns(st, userId, id) then Refuse(st, NotFound, Catalog.MsgFileNotFound)
    else
      var f := st.files[id];
      if !RenameGoesThrough(st, f, renameOk) then Refuse(st, ServerError, MsgRenameFailed)
      else
        var g := Touch(f, Renamed(f, name.value), now);
        var disk := if HasBlob(f) then MoveBlob(st.disk, f.filePath.value, RenamedPath(f.filePath.value, name.value)) else st.disk;
        Step(st.(files := st.files[id := g], disk := disk), Ok(OwnerView(g)))
  }

  /** A renamed blob stays in its directory and keeps its extension, as long
      as the new name has no separator and, when the old path had no
      extension, no dot. */
  lemma RenameKeepsDirectoryAndExtension(from: Path, name: string)
    requires name != "" && '/' !in name
    requires Extname(from) == "" ==> '.' !in name
    ensures Dirname(RenamedPath(from, name)) == Dirname(from)
    ensures Extname(RenamedPath(from, name)) == Extname(from)
  {
    ExtnamePreserved(from, name);
  }

  lemma RenameKeepsValid(st: Store, userId: Id, id: Id, name: Field<string>, now: Millis, renameOk: bool)
    requires Valid(st)
    ensures Valid(RenameFile(st, userId, id, name, now, renameOk).store)
  {
  }

  /** A document's rename touches only its name: its text and the byte
      store are untouched. */
  lemma RenameDocumentOnlyRenames(st: Store, userId: Id, id: Id, name: Field<string>, now: Millis, renameOk: bool)
    requires Truthy(name) && Owns(st, userId, id) && st.files[id].kind == Document
    ensures var r := RenameFile(st, userId, id, name, now, renameOk);
      && r.reply.Ok?
      && r.store.disk == st.disk
      && r.store.files[id].name == name.value
      && r.store.files[id].content == st.files[id].content
      && r.store.files[id].filePath == st.files[id].filePath
  {
  }

  // ------------------------------------------------------ duplicate / copy

  /** `${n}` for an integer. */
  function IntText(n: int): (s: string)
    ensures s != "" && '/' !in s && '.' !in s
  {
    if n < 0 then "-" + Decimal(-n) else Decimal(n)
  }

  /** `${Date.now()}-${Math.round(Math.random() * 1e9)}`. */
  function CopyStem(now: Millis, rand: nat): (s: string)
    ensures s != "" && '/' !in s && '.' !in s
  {
    IntText(now) + "-" + IntText(rand)
  }

  /** Where a copy's bytes go: the source's directory, a fresh stem, the
      source's extension. */
  function CopyPath(from: Path, now: Millis, rand: nat): Path {
    Join(Dirname(from), CopyStem(now, rand) + Extname(from))
  }

  /** A copied blob sits beside its source and keeps its extension. */
  lemma CopyPathShape(from: Path, now: Millis, rand: nat)
    ensures Dirname(CopyPath(from, now, rand)) == Dirname(from)
    ensures Extname(CopyPath(from, now, rand)) == Extname(from)
  {
    ExtnamePreserved(from, CopyStem(now, rand));
  }

  /** Two copies of the same blob made in the same millisecond get
      different paths whenever their random numbers differ. */
  lemma CopyPathInjective(from: Path, now: Millis, r1: nat, r2: nat)
    ensures r1 != r2 ==> CopyPath(from, now, r1) != CopyPath(from, now, r2)
  {
    if CopyPath(from, now, r1) == CopyPath(from, now, r2) {
      var dir := Dirname(from);
      var ext := Extname(from);
      var s1 := CopyStem(now, r1) + ext;
      var s2 := CopyStem(now, r2) + ext;
      if dir != "." {
        assert (dir + "/") + s1 == (dir + "/") + s2;
        PrefixCancel(dir + "/", s1, s2);
      }
      SuffixCancel(CopyStem(now, r1), CopyStem(now, r2), ext);
      var head := IntText(now) + "-";
      assert head + Decimal(r1) == head + Decimal(r2);
      PrefixCancel(head, Decimal(r1), Decimal(r2));
      DecimalInjective(r1, r2);
    }
  }

  /** Whether the byte-store half of a duplicate or copy succeeds. */
  predicate CopyGoesThrough(st: Store, f: FileRec, copyOk: bool) {
    HasBlob(f) ==> copyOk && f.filePath.value in st.disk
  }

  /** The byte store once a duplicate or copy has copied `f`'s bytes to
      their fresh path (unchanged when `f` has no blob). A definition:
      `CopyBlob` carries the contract. */
  function CopiedDisk(st: Store, f: FileRec, now: Millis, rand: nat): map<Path, nat>
    requires HasBlob(f) ==> f.filePath.value in st.disk
  {
    if HasBlob(f) then CopyBlob(st.disk, f.filePath.value, CopyPath(f.filePath.value, now, rand)) else st.disk
  }

  /** The record a duplicate or copy creates: same type and owner, not a
      favourite, a document's text by value, a binary's fresh path. */
  function CloneRecord(f: FileRec, name: string, folderId: Option<Id>, newId: Id, now: Millis, rand: nat): (g: FileRec)
    ensures g.id == newId && g.name == name && g.kind == f.kind && g.folderId == folderId && g.userId == f.userId
    ensures !g.isFavorite && g.createdAt == now && g.updatedAt == now
    ensures g.content == (if f.kind == Document then f.content else None)
    ensures g.filePath == (if HasBlob(f) then Some(CopyPath(f.filePath.value, now, rand)) else None)
  {
    var base := NewFile(newId, name, f.kind, folderId, f.userId, now);
    if f.kind == Document then base.(content := f.content)
    else if HasBlob(f) then base.(filePath := Some(CopyPath(f.filePath.value, now, rand)))
    else base
  }

  /** The shared tail of duplicate and copy: copy the bytes (failing with
      `failure` when that does not go through), then save the new record.
      A save that fails after a successful copy leaves the copied bytes on
      the byte store. */
  function Clone(st: Store, f: FileRec, name: string, folderId: Option<Id>, newId: Id, now: Millis, rand: nat,
                 copyOk: bool, failure: string): (r: Step<FileView>)
    ensures !CopyGoesThrough(st, f, copyOk) ==> r.store == st && r.reply == Fail(ServerError, failure)
    ensures r.reply.Ok? <==> CopyGoesThrough(st, f, copyOk) && name != "" && newId !in st.files
    ensures CopyGoesThrough(st, f, copyOk) && !(name != "" && newId !in st.files) ==>
      r.reply == Fail(ServerError, Unhandled) && r.store == st.(disk := CopiedDisk(st, f, now, rand))
    ensures r.reply.Ok? ==>
      var g := CloneRecord(f, name, folderId, newId, now, rand);
      && r.store.files == st.files[newId := g]
      && r.store.folders == st.folders && r.store.links == st.links
      && r.store.disk == (if HasBlob(f) then CopyBlob(st.disk, f.filePath.value, g.filePath.value) else st.disk)
      && r.reply.value == OwnerView(g)
  {
    if !CopyGoesThrough(st, f, copyOk) then Refuse(st, ServerError, failure)
    else
      var g := CloneRecord(f, name, folderId, newId, now, rand);
      var st1 := if HasBlob(f) then st.(disk := CopyBlob(st.disk, f.filePath.value, g.filePath.value)) else st;
      match InsertFile(st1, g)
      case Ok(st2) => Step(st2, Ok(OwnerView(g)))
      case Fail(status, message) => Step(st1, Fail(status, message))
  }

  /** `POST /files/:id/duplicate`: a copy named "Copy of <name>" in the same
      folder. */
  function DuplicateFile(st: Store, userId: Id, id: Id, newId: Id, now: Millis, rand: nat, copyOk: bool): (r: Step<FileView>)
    ensures !Owns(st, userId, id) ==> r.store == st && r.reply == Fail(NotFound, Catalog.MsgFileNotFound)
    ensures Owns(st, userId, id) && !CopyGoesThrough(st, st.files[id], copyOk) ==>
      r.store == st && r.reply == Fail(ServerError, MsgDuplicateFailed)
    ensures r.reply.Ok? <==> Owns(st, userId, id) && CopyGoesThrough(st, st.files[id], copyOk) && newId !in st.files
    ensures r.reply.Ok? ==>
      var f := st.files[id];
      && newId in r.store.files && r.store.files == st.files[newId := r.store.files[newId]]
      && r.store.files[newId] == CloneRecord(f, CopyPrefix + f.name, f.folderId, newId, now, rand)
      && r.store.folders == st.folders && r.store.links == st.links
      && r.store.disk == CopiedDisk(st, f, now, rand)
      && r.reply.value == OwnerView(r.store.files[newId])
    ensures Owns(st, userId, id) && CopyGoesThrough(st, st.files[id], copyOk) && newId in st.files ==>
      r.reply == Fail(ServerError, Unhandled) && r.store == st.(disk := CopiedDisk(st, st.files[id], now, rand))
  {
    if !Owns(st, userId, id) then Refuse(st, NotFound, Catalog.MsgFileNotFound)
    else
      var f := st.files[id];
      Clone(st, f, CopyPrefix + f.name, f.folderId, newId, now, rand, copyOk, MsgDuplicateFailed)
  }

  /** `POST /files/:id/copy`: a copy with the same name in another folder of
      the caller's. */
  function CopyFile(st: Store, userId: Id, id: Id, folderId: Field<Id>, newId: Id, now: Millis, rand: nat, copyOk: bool): (r: Step<FileView>)
    ensures !Truthy(folderId) ==> r.store == st && r.reply == Fail(BadRequest, MsgFolderRequired)
    ensures Truthy(folderId) && !Owns(st, userId, id) ==> r.store == st && r.reply == Fail(NotFound, Catalog.MsgFileNotFound)
    ensures Truthy(folderId) && Owns(st, userId, id) && !OwnsFolder(st, userId, folderId.value) ==>
      r.store == st && r.reply == Fail(NotFound, MsgFolderNotFound)
    ensures Truthy(folderId) && Owns(st, userId, id) && OwnsFolder(st, userId, folderId.value)
            && !CopyGoesThrough(st, st.files[id], copyOk) ==>
      r.store == st && r.reply == Fail(ServerError, MsgCopyFailed)
    ensures r.reply.Ok? <==>
      && Truthy(folderId) && Owns(st, userId, id) && OwnsFolder(st, userId, folderId.value)
      && CopyGoesThrough(st, st.files[id], copyOk) && st.files[id].name != "" && newId !in st.files
    ensures r.reply.Ok? ==>
      var f := st.files[id];
      && newId in r.store.files && r.store.files == st.files[newId := r.store.files[newId]]
      && r.store.files[newId] == CloneRecord(f, f.name, Some(folderId.value), newId, now, rand)
      && r.store.folders == st.folders && r.store.links == st.links
      && r.store.disk == CopiedDisk(st, f, now, rand)
      && r.reply.value == OwnerView(r.store.files[newId])
    ensures Truthy(folderId) && Owns(st, userId, id) && OwnsFolder(st, userId, folderId.value)
            && CopyGoesThrough(st, st.files[id], copyOk) && !(st.files[id].name != "" && newId !in st.files) ==>
      r.reply == Fail(ServerError, Unhandled) && r.store == st.(disk := CopiedDisk(st, st.files[id], now, rand))
  {
    if !Truthy(folderId) then Refuse(st, BadRequest, MsgFolderRequired)
    else if !Owns(st, userId, id) then Refuse(st, NotFound, Catalog.MsgFileNotFound)
    else if !OwnsFolder(st, userId, folderId.value) then Refuse(st, NotFound, MsgFolderNotFound)
    else
      var f := st.files[id];
      Clone(st, f, f.name, Some(folderId.value), newId, now, rand, copyOk, MsgCopyFailed)
  }

  /** Duplicating keeps the store valid: the new record has the shape of
      its source. */
  lemma DuplicateKeepsValid(st: Store, userId: Id, id: Id, newId: Id, now: Millis, rand: nat, copyOk: bool)
    requires Valid(st)
    ensures Valid(DuplicateFile(st, userId, id, newId, now, rand, copyOk).store)
  {
    var r := DuplicateFile(st, userId, id, newId, now, rand, copyOk);
    if r.reply.Ok? {
      InsertKeepsValid(st.(disk := r.store.disk), r.store.files[newId]);
    }
  }

  lemma CopyKeepsValid(st: Store, userId: Id, id: Id, folderId: Field<Id>, newId: Id, now: Millis, rand: nat, copyOk: bool)
    requires Valid(st)
    ensures Valid(CopyFile(st, userId, id, folderId, newId, now, rand, copyOk).store)
  {
    var r := CopyFile(st, userId, id, folderId, newId, now, rand, copyOk);
    if r.reply.Ok? {
      InsertKeepsValid(st.(disk := r.store.disk), r.store.files[newId]);
    }
  }

  /** The duplicate's bytes are a separate blob: when the fresh path differs
      from the source's, later writes to the source's path leave the copy's
      bytes alone. */
  lemma DuplicateBytesIndependent(st: Store, userId: Id, id: Id, newId: Id, now: Millis, rand: nat, copyOk: bool, size: nat)
    requires Owns(st, userId, id) && HasBlob(st.files[id])
    requires CopyPath(st.files[id].filePath.value, now, rand) != st.files[id].filePath.value
    requires DuplicateFile(st, userId, id, newId, now, rand, copyOk).reply.Ok?
    ensures var r := DuplicateFile(st, userId, id, newId, now, rand, copyOk);
      var src := st.files[id].filePath.value;
      var dst := r.store.files[newId].filePath.value;
      dst != src && r.store.disk[src := size][dst] == st.disk[src]
  {
  }
}

=== FILE: values.dfy ===
/** JavaScript values as the handlers see them: optional record fields,
    request fields that may be missing or null, and truthiness. */
module Values {

  /** A record field that may hold `null`. */
  datatype Option<+T> = None | Some(value: T)

  /** A field of a JSON request body or query string: missing (`undefined`),
      explicitly `null`, or a value. */
  datatype Field<+T> = Undefined | Null | Given(value: T)

  /** JavaScript truthiness of a string field: present and non-empty. */
  predicate Truthy(f: Field<string>) {
    f.Given? && f.value != ""
  }

  /** JavaScript truthiness of a stored string that may be null. */
  predicate Present(o: Option<string>) {
    o.Some? && o.value != ""
  }
}

=== FILE: views.dfy ===
/** The content resolver: how a stored File is shown to a caller. Every
    handler that answers with a File (list, get, update, rename, duplicate,
    copy and the shared view) goes through `Resolve`. */
module Views {
  import opened Values
  import opened Records

  /** The JSON a handler sends for a File: the record's own fields, with
      `content` overridden, plus `contentUrl`. */
  datatype FileView = FileView(file: FileRec, contentUrl: Option<string>)

  const OwnerPrefix := "/api/files/"
  /** The public share route: issuing a link answers `origin + SharePrefix +
      token`, and the shared bytes sit under it with `ContentSuffix`. */
  const SharePrefix := "/api/files/share/"
  const ContentSuffix := "/content"

  /** Where the owner fetches a File's bytes. */
  function OwnerContentUrl(id: Id): (u: string)
    ensures |u| == |OwnerPrefix| + |id| + |ContentSuffix|
    ensures u[..|OwnerPrefix|] == OwnerPrefix
    ensures u[|OwnerPrefix|..|u| - |ContentSuffix|] == id
    ensures u[|u| - |ContentSuffix|..] == ContentSuffix
  {
    OwnerPrefix + id + ContentSuffix
  }

  /** Where a share-link holder fetches the bytes. */
  function SharedContentUrl(token: string): (u: string)
    ensures |u| == |SharePrefix| + |token| + |ContentSuffix|
    ensures u[..|SharePrefix|] == SharePrefix
    ensures u[|SharePrefix|..|u| - |ContentSuffix|] == token
    ensures u[|u| - |ContentSuffix|..] == ContentSuffix
  {
    SharePrefix + token + ContentSuffix
  }

  /** A document shows its inline text and no URL; a pdf or image shows no
      text and the URL `url`. Every other field is the record's own. */
  function Resolve(f: FileRec, url: string): (v: FileView)
    ensures v.file.content == (if f.kind == Document then f.content else None)
    ensures v.contentUrl.Some? <==> f.kind != Document
    ensures v.contentUrl.Some? ==> v.contentUrl.value == url
    ensures v.file.(content := f.content) == f
  {
    if f.kind == Document then FileView(f, None)
    else FileView(f.(content := None), Some(url))
  }

  /** The view of a File the caller owns. */
  function OwnerView(f: FileRec): (v: FileView)
    ensures v.contentUrl.Some? ==> v.contentUrl.value == OwnerContentUrl(f.id)
  {
    Resolve(f, OwnerContentUrl(f.id))
  }

  /** The view of a File reached through the share token `token`. */
  function SharedView(f: FileRec, token: string): (v: FileView)
    ensures v.contentUrl.Some? ==> v.contentUrl.value == SharedContentUrl(token)
  {
    Resolve(f, SharedContentUrl(token))
  }

  /** A view never carries both inline text and a URL. */
  lemma ViewExclusive(f: FileRec, url: string)
    ensures Resolve(f, url).file.content.Some? ==> Resolve(f, url).contentUrl.None?
  {
  }

  /** On a well-shaped File the `content` override changes nothing: the view
      shows the record as stored. */
  lemma ResolveWellShaped(f: FileRec, url: string)
    requires WellShaped(f)
    ensures Resolve(f, url).file == f
  {
  }

  /** Distinct Files get distinct owner URLs. */
  lemma OwnerUrlInjective(a: Id, b: Id)
    requires OwnerContentUrl(a) == OwnerContentUrl(b)
    ensures a == b
  {
    var u := OwnerContentUrl(a);
    assert a == u[|OwnerPrefix|..|u| - |ContentSuffix|];
  }
}
